=== FILE: README.md ===
# GitSocial: session, route guard, age labels and list shaping

GitSocial is a small React client over the GitHub REST API and a Supabase
table of registered usernames. Once every network answer, `Math.random` and
the clock are taken as inputs, three pieces of logic remain, and this
project models them in Dafny and proves properties of them:

- **Session and onboarding.** A user goes from anonymous to signed in
  (`{email, loggedIn}`) to named (`{email, loggedIn, username}`). The
  changes come from the sign-in/sign-up form, the username form, logout and
  the authentication service's change listener. The App component keeps the
  user in memory and a copy in local storage, and maps each (route, user)
  pair to a page or a redirect.
- **Age labels.** `getRepoAge` (home and profile pages) uses 30-day months
  and 12-month years. `timeAgo` (repository page) uses 30-day months,
  365-day years and a plural rule.
- **List shaping.**
  - The home feed samples at most ten followers, picks one repository of
    each, drops failed or empty results, and appends the rest to the feed.
  - The repository page keeps the first six contributors and lists the
    owner's other repositories.
  - The profile page picks which list its dialog shows.

Modules, one per file:

| module | file | models |
|---|---|---|
| `Common` | common.dfy | `Option`, the three-way `Response` of a request (ok with a body, not ok, threw), `Min`, `Take` |
| `Decimal` | decimal.dfy | how `${n}` prints an integer, and its inverse |
| `Text` | text.dfy | `String.prototype.trim` |
| `Session` | session.dfy | the App component's user state: startup, auth-change listener, logout |
| `Routes` | routes.dfy | the route table and its guards |
| `Auth` | auth.dfy | `signUp` / `signIn` / `handleSuccess` |
| `UsernameSetup` | username.dfy | the GitHub search prefill and `handleSubmit` |
| `Age` | age.dfy | `getRepoAge` and `timeAgo` |
| `Feed` | feed.dfy | `fetchGitHub` and `loadRandomRepos` of the home page, and the scroll trigger |
| `Profile` | profile.dfy | whose profile is shown, `fetchData`, the dialog, the explore list, `handleLogout` |
| `RepoDetail` | repo.dfy | `fetchRepoData`, contributors, other repositories, stats tiles |
| `Onboarding` | onboarding.dfy | all session events together: the sync invariant and the happy path |

Inputs that stand in for the outside world:

- Each request is a `Response` parameter.
- A value of `Math.random()` is a fraction `num / den` with `num < den`.
- The random-comparator shuffle followed by `slice(0, 10)` is a sequence of
  choices. Each choice draws one of the remaining followers.
- Elapsed time is an integer number of milliseconds.

The route guard is stronger than "redirects terminate". Every redirect
target renders for the same user, so `Routes.Settle` reaches a rendered page
after at most one redirect.

## Model

| member | source | states |
|---|---|---|
| Session.Startup | src/App.jsx:16-35 | a stored user is taken as-is and the listener is never subscribed; with no stored user the session's user (if any) becomes a fresh signed-in user with no username; either way the stored copy equals the state and loading is over |
| Session.StartupSkipsSession | src/App.jsx:17-22 | with a stored user the session answer makes no difference to the state |
| Session.FromSession | src/App.jsx:37 | the user built from a session is signed in and has no username |
| Session.AuthChange | src/App.jsx:35-44 | an event with a user yields `{email, loggedIn: true}` with no username and a stored copy equal to it; an event without one clears both; nothing changes if the listener was not subscribed |
| Session.Logout | src/App.jsx:49-53 | user and stored copy are both cleared, so the user is anonymous |
| Routes.RootByStage | src/App.jsx:61-70 | "/" renders the sign-in form exactly for anonymous users, redirects named users to "/home" and signed-in users without a name to "/username" |
| Routes.UsernameGuard | src/App.jsx:73-82 | "/username" renders the form exactly for a signed-in user without a username, redirects exactly the named users to "/home" and exactly the anonymous ones to "/" |
| Routes.HomeGuard | src/App.jsx:85-94 | "/home" renders the feed iff `loggedIn` and a non-empty username; otherwise it redirects to "/username" (signed in) or "/" (anonymous) |
| Routes.ProfileAndRepoGuard | src/App.jsx:95-97 | both profile routes render iff signed in, no username needed; a repository renders for every user |
| Routes.AnonymousSeesOnlyAuthOrRepo | src/App.jsx:61-97 | an anonymous user sees only the sign-in form or a repository, and every redirect they get goes to "/" |
| Routes.RedirectLands | src/App.jsx:61-97 | the target of every redirect renders for the same user |
| Routes.Settle | src/App.jsx:61-97 | following redirects from any route terminates at a rendering route after at most one hop: a rendering route is its own page (zero hops), and a redirect lands on its own target |
| Routes.LogoutLocksGuardedRoutes | src/App.jsx:49-97 | after logout every route except a repository ends on the sign-in form at "/" |
| Auth.Begin | src/components/Auth.jsx:14-15 | pressing a button clears the error and shows the spinner |
| Auth.Complete | src/components/Auth.jsx:29-37 | an error shows its message, leaves the App state alone and does not navigate; a success stores exactly `{email, loggedIn: true}` in memory and in storage and navigates to "/username"; the spinner stops either way |
| Auth.Attempt | src/components/Auth.jsx:23-31 | a whole attempt ends with the spinner off and, on success, no error line |
| Auth.AttemptIgnoresKind | src/components/Auth.jsx:13-31 | `signUp` and `signIn` handle the reply identically |
| Auth.SuccessLandsOnUsernameForm | src/components/Auth.jsx:37 | the navigation target after a success renders the username form directly for the new user |
| UsernameSetup.Prefill | src/components/Username.jsx:19-32 | a search with a non-zero count and at least one item fills both the found login and the input with the first login; a zero count or a failed search leaves no login and the input untouched; loading ends |
| UsernameSetup.InsertMessage | src/components/Username.jsx:57-64 | the error line is empty iff the insert succeeded or reported the duplicate-key code '23505' |
| UsernameSetup.HandleSubmit | src/components/Username.jsx:38-75 | blank input only sets 'Username cannot be empty.'; otherwise the user gets the trimmed name with every other field kept, the stored copy equals it, the trimmed name is inserted, and the handler itself calls `navigate('/home')` unless the insert threw (the error line it sets is off screen by then, see `SubmitLeavesUsernamePage`) |
| UsernameSetup.SubmitUnlocksHome | src/components/Username.jsx:48-50 | after a non-blank submit the user is named, "/home" renders, and the saved name has no white space at either end |
| UsernameSetup.SubmitLeavesUsernamePage | src/components/Username.jsx:50 | the user is named before the insert is answered, so "/username" redirects to "/home" after every non-blank submit, whatever the insert replied (src/App.jsx:76-79) |
| UsernameSetup.PrefillThenSubmit | src/components/Username.jsx:21-54 | submitting the pre-filled form saves the found login, trimmed; with nothing found the input is empty and the submit is refused |
| UsernameSetup.SubmitKeepsAccount | src/components/Username.jsx:48 | email and sign-in flag survive every submit |
| Text.Trim | src/components/Username.jsx:39 | the trimmed string is no longer than the input and does not start or end with ECMAScript white space |
| Text.TrimIsSlice | src/components/Username.jsx:48 | the trimmed string is a contiguous slice of the input with only white space before and after it |
| Text.TrimEmptyIffBlank | src/components/Username.jsx:39-42 | trimming gives the empty string iff the input is empty or all white space |
| Text.TrimIdempotent | src/components/Username.jsx:48 | trimming a trimmed name leaves it unchanged |
| Age.FloorDiv | src/pages/Home.jsx:24 | `Math.floor(ms / d)` is the integer q with d*q <= ms < d*(q+1) |
| Age.NestedFloorDiv | src/pages/Home.jsx:26-28 | flooring by 30 and then by 12 is flooring by 360 |
| Age.RepoAge | src/pages/Home.jsx:21-29 | days iff fewer than 30 days, with the day count; months iff 30 to 359 days, with the count of whole 30-day months (1 to 11); otherwise years, with the count of whole 360-day years (the profile page's copy at src/pages/Profile.jsx:21-29 is identical) |
| Age.TimeAgo | src/pages/Repo.jsx:19-28 | years iff at least 365 days, counting whole 365-day years; else months iff at least 30 days, counting whole 30-day months (1 to 12); else days; plural iff the count is above one |
| Age.CountReadsBack | src/pages/Home.jsx:25-28 | the number at the start of either label's text reads back as the label's count |
| Age.AgreeOnDays | src/pages/Repo.jsx:23-27 | below 30 days both functions report the same day count |
| Age.AgreeOnMonths | src/pages/Repo.jsx:22-26 | from 30 to 359 days both report the same month count |
| Age.DisagreeBeforeFullYear | src/pages/Repo.jsx:21-26 | from 360 to 364 days `getRepoAge` says 1 year while `timeAgo` says 12 months |
| Age.RepoAgeYearsNotBelowTimeAgo | src/pages/Repo.jsx:21-25 | from 365 days on both report years, and the 360-day count is never below the 365-day count |
| Age.YearsDrift | src/pages/Home.jsx:26-28 | at 1,440 days `getRepoAge` reports 4 years and `timeAgo` 3 years |
| Age.YearsDriftGrows | src/pages/Repo.jsx:21 | the gap is unbounded: for every k >= 1, after 26,280·k days `getRepoAge` reports 73·k years and `timeAgo` 72·k |
| Decimal.Show | src/pages/Home.jsx:25 | the printed integer is non-empty and starts with '-' exactly for negatives |
| Decimal.ParseShow | src/pages/Home.jsx:25 | the printed integer reads back as the same integer |
| Decimal.ShowInjective | src/pages/Repo.jsx:25-27 | different counts print as different texts |
| Decimal.ShowHasNoSpace | src/pages/Home.jsx:25 | a printed integer contains no space |
| Feed.PickIndex | src/pages/Home.jsx:74 | `Math.floor(Math.random() * len)` is a valid index for a non-empty list |
| Feed.Draw | src/pages/Home.jsx:67 | the sample has min(n, number of followers) elements |
| Feed.DrawWithoutReplacement | src/pages/Home.jsx:67 | the sample, as a multiset, is contained in the follower list: no follower is drawn more often than it occurs |
| Feed.Sample | src/pages/Home.jsx:67 | at most ten followers, min(10, count) of them, each a follower and none repeated beyond its multiplicity |
| Feed.CountOrZero | src/pages/Home.jsx:82-84 | the count of a list answer is its length, and 0 when the request was not ok |
| Feed.FollowerResult | src/pages/Home.jsx:69-97 | a failed or empty repository list gives null; a thrown request rejects; an item is produced exactly when the list is non-empty and no detail request threw; an item names its follower and the repository at the random index, with counts or 0 and language keys or none |
| Feed.Collect | src/pages/Home.jsx:99 | `filter(Boolean)` keeps every produced item and nothing else; an empty list gives none |
| Feed.CollectOne | src/pages/Home.jsx:99 | one result contributes its item, or nothing for `null` |
| Feed.CollectAppend | src/pages/Home.jsx:99 | filtering distributes over concatenation, so the items are the produced ones in order and with their multiplicity |
| Feed.Outcomes | src/pages/Home.jsx:69-99 | one outcome per sampled follower, each the result of that follower's lookups |
| Feed.Batch | src/pages/Home.jsx:99 | the batch is dropped iff some promise rejected; otherwise it is the filtered results in sample order: at most one item per sampled follower, each about a sampled follower |
| Feed.Append | src/pages/Home.jsx:100 | the old feed is a prefix of the new one and the rest is exactly the added items |
| Feed.LoadRandomRepos | src/pages/Home.jsx:63-106 | no followers: nothing changes; otherwise the old feed stays as a prefix, at most ten items are appended, each about a follower, and loading-more ends; a rejected batch appends nothing, any other appends exactly the filtered results in sample order |
| Feed.FollowerReachesFeed | src/pages/Home.jsx:69-100 | a sampled follower with a non-empty repository list and no thrown request gets an item about them and one of their repositories, when no promise rejected |
| Feed.FeedItemsComeFromLookups | src/pages/Home.jsx:88-100 | every appended item is the result of some sampled follower's own lookups |
| Feed.ScrollTarget | src/pages/Home.jsx:209 | the scroll trigger is on the last item, and there is none for an empty feed |
| Feed.ScrollTargetAfterLoad | src/pages/Home.jsx:206-209 | after a batch the trigger moves onto a new item, or stays put when nothing was added |
| Feed.LoadHome | src/pages/Home.jsx:31-53 | as written: no error iff both the account and the followers loaded; the account stored is the one fetched; a non-ok answer to either request ends in the same invalid-hook-call error from React, a thrown request or an undecodable body in the request's own error; followers are set only on success; loading ends |
| Feed.StatusNeverShown | src/pages/Home.jsx:38-47 | as written, a 404 and a 500 on the account, and a failed followers request, all show the same error |
| Feed.LoadHomeIntended | src/pages/Home.jsx:38-43 | with the built-in `Error`: a non-ok account response shows its status and a non-ok followers response its own error; the account stored is the one fetched |
| Feed.IntendedShowsStatus | src/pages/Home.jsx:38 | the intended error determines the status and tells the two failures apart, and otherwise the page agrees with the one as written |
| Feed.FirstBatchOnlyWithFollowers | src/pages/Home.jsx:121-123 | the first batch is requested iff the account and a non-empty follower list loaded, as written and as intended alike |
| Profile.ProfileName | src/pages/Profile.jsx:34 | `username \|\| user?.username`: a non-empty route parameter wins; otherwise the signed-in user's username, absent when there is no user or no name |
| Profile.ProfileNameByRoute | src/pages/Profile.jsx:34 | "/profile" looks up the signed-in user's username, "/profile/:username" the named one |
| Profile.RequestedLogin | src/pages/Profile.jsx:35 | `encodeURIComponent(uname)`: an absent name becomes the login "undefined", a GitHub login is used as it is |
| Profile.OwnProfileWithoutUsername | src/pages/Profile.jsx:34-35 | a signed-in user without a username is let onto "/profile"; there `uname` is `undefined`, so the page requests the account whose login is "undefined", the same request as "/profile/undefined" |
| Profile.LoadProfile | src/pages/Profile.jsx:31-56 | starting from what the page holds: loading ends in every outcome; a failed account request changes nothing else; otherwise the account is replaced, the repositories iff their request was ok, and each list iff its request was ok and neither the repositories request nor either list request threw; anything not replaced is kept |
| Profile.FirstLoad | src/pages/Profile.jsx:31-56 | on first mount a failed account request leaves the page empty, and everything shown came from an ok answer |
| Profile.FailedReloadKeepsPrevious | src/pages/Profile.jsx:36-56 | after a change of `:username` (src/pages/Profile.jsx:56) a failed account request keeps the previous profile's account and lists |
| Profile.LoadProfileIdempotent | src/pages/Profile.jsx:31-56 | loading again with the same answers changes nothing more |
| Profile.OpenDialog | src/pages/Profile.jsx:73-76 | opening sets the kind and shows the dialog |
| Profile.CloseDialog | src/pages/Profile.jsx:78 | closing hides the dialog and keeps its kind |
| Profile.DialogData | src/pages/Profile.jsx:79 | followers for the kind 'followers', following for every other kind |
| Profile.DialogShowsChosenList | src/pages/Profile.jsx:73-79 | the dialog lists followers iff its kind is 'followers'; any other kind, the initial empty one included, lists following, and closing keeps the list |
| Profile.RefreshExplore | src/pages/Profile.jsx:58-64 | the explore list is replaced by data that came with no error, and kept otherwise (the home page's `fetchUsers` at src/pages/Home.jsx:55-61 is identical) |
| Profile.RefreshExploreKeepsLastGood | src/pages/Profile.jsx:60-61 | a repeated query changes nothing, and a failed query keeps the last good data |
| Profile.HandleLogout | src/pages/Profile.jsx:68-71 | after logout the user and stored copy are cleared and "/" shows the sign-in form |
| RepoDetail.Contributors | src/pages/Repo.jsx:44 | the first min(6, n) contributors, in order |
| RepoDetail.OtherRepos | src/pages/Repo.jsx:48 | exactly the owner's repositories whose id is not the current one, as a subsequence that keeps their order |
| RepoDetail.OtherReposMultiplicity | src/pages/Repo.jsx:48 | each repository with another id is kept as often as it occurs, and none with the current id |
| RepoDetail.DisplayedOthers | src/pages/Repo.jsx:254 | min(10, n) are displayed, the first ones of the list |
| RepoDetail.DisplayedOthersAreFirstTen | src/pages/Repo.jsx:48-254 | the row shows the first min(10, n) other repositories, all of them when there are at most ten, none with the current id |
| RepoDetail.StatTiles | src/pages/Repo.jsx:136-141 | four tiles: 'Stars' with the star count, 'Forks' with the fork count, 'Issues' with the open-issue count, then 'Pulls' |
| RepoDetail.TilesDetermineCounts | src/pages/Repo.jsx:136-141 | two repositories show the same tiles exactly when their star, fork and open-issue counts agree |
| RepoDetail.PullsTileShowsForks | src/pages/Repo.jsx:138-140 | the 'Pulls' tile shows the fork count, the same value as 'Forks' |
| RepoDetail.LoadRepo | src/pages/Repo.jsx:13-56 | starting from whatever the page holds: a non-ok repository request sets only the fetch error, a thrown one only the request error; an ok one sets the repository first, then languages, contributors and other repositories in turn, each kept from before when an earlier step threw; every failure sets the request error, a full success leaves the error as it was, no error is ever cleared, and the spinner ends off |
| RepoDetail.View | src/pages/Repo.jsx:58-62 | the spinner while loading, else the error line when there is an error, else "No repository found." without a repository, else the repository with the page's lists |
| RepoDetail.FirstLoad | src/pages/Repo.jsx:30-62 | on a freshly mounted page the repository is shown iff every request answered as expected, with its six contributors and other repositories; a non-ok repository request shows the fetch error and any other failure the request error |
| RepoDetail.StaleErrorStays | src/pages/Repo.jsx:14-59 | once the page holds an error, every later load on it renders an error line, the old one when all requests succeed |
| RepoDetail.BackAfterFailedRepo | src/pages/Repo.jsx:50-59 | a repository that loaded, then one whose request was not ok, then the first again: the first is shown, and after going back the fetch error is still shown |
| RepoDetail.LoadRepoIntended | src/pages/Repo.jsx:30-56 | with the error cleared when the effect starts, the page ends with no error exactly when every request answered as expected |
| RepoDetail.IntendedIgnoresHistory | src/pages/Repo.jsx:30-62 | with that reset the rendered page depends only on the current answers: it equals a first load's |
| RepoDetail.ShownOthersExcludeCurrent | src/pages/Repo.jsx:48-254 | whatever the page held before a load, no displayed "explore more" entry is the repository itself |
| Onboarding.Step | src/App.jsx:35-53 | no session event changes the loading flag or whether the listener is subscribed |
| Onboarding.StepKeepsSync | src/components/Username.jsx:49-50 | every event (listener, logout, sign-in, username submit) keeps the stored copy equal to the user |
| Onboarding.RunKeepsSync | src/App.jsx:17-44 | from startup, after any sequence of events, the stored copy equals the in-memory user |
| Onboarding.RunFromSynced | src/App.jsx:35-53 | a synced state stays synced under any sequence of events |
| Onboarding.StepMovesOneStage | src/App.jsx:35-44 | no single event takes an anonymous user straight to named |
| Onboarding.AuthEventDropsUsername | src/App.jsx:36-39 | an auth event with a user forgets a chosen username, so "/home" lands on the username form again |
| Onboarding.OnboardingReachesHome | src/App.jsx:61-94 | first visit: sign-in form; after a successful sign-in: username form; after a non-blank name: "/" and "/home" land on the feed |

## Left out

- Network requests and the Supabase client. Their answers are parameters
  (`Response`, `Lookup`, `Search`, `InsertReply`, `NamesQuery`).
- `Date` and `Date.now`. Elapsed time is an integer parameter.
- `Math.random`. It is a fraction parameter, or a sequence of choices for
  the shuffle.
- React hooks, effect ordering, re-rendering, `useCallback` dependencies and
  the `IntersectionObserver`. Only the state transitions are modelled. The
  ref callback's early return while a batch is loading is not modelled.
- `Promise.all` parallelism. It is modelled as one outcome per follower,
  where any rejection rejects the batch.
- The 500 ms `setTimeout` before navigating to "/home". The navigation is
  part of the submit's result. The error lines the username form sets after
  a non-blank submit are modelled, although the route guard has replaced
  the form by then.
- Local storage beyond the one 'user' key. The JSON round trip through
  storage is taken to return the same user object.
- Floating-point division. Elapsed milliseconds are integers, and the
  model uses integer floor division.
- Profile.LoadProfile: a body that fails to decode after an ok status is
  treated like a thrown request. The case where the followers list is set
  and then the following body fails to decode is not separated out.
- RepoDetail.LoadRepo: only three cases are distinguished for the
  contributors and repositories bodies (a list, some other JSON value, a
  failure). Error messages are modelled as two error kinds, not their
  text. Only the settled page is modelled: the renders between the awaits
  of a reload, which mix the new repository with the previous lists, are
  not.
- Profile.RequestedLogin: the percent-encoding of characters other than
  letters, digits and hyphens is not modelled, since GitHub logins have
  none.
- Feed.Sample: proves the sample is drawn without replacement from the
  followers. It does not prove that every ordering of the followers can
  occur.
- Feed.LoadRandomRepos: a repositories body that is not an array
  (`length` undefined) is not modelled apart from an empty list.
- Auth: a local-storage failure inside `handleSuccess`, after the user was
  set, is not modelled.
- src/components/Loader.jsx is not part of this model. Of
  src/components/Error.jsx only its `useNavigate` call matters, because it
  makes `new Error(...)` throw on the home page (see "Findings").
- All inline styling, layout and hover handlers.

## Findings

| source | as written | input that shows it | evidently intended | confidence | as-written member | corrected member |
|---|---|---|---|---|---|---|
| src/pages/Home.jsx:6, src/pages/Home.jsx:38, src/pages/Home.jsx:43 | the module imports the `Error` component under the name of the built-in `Error`, so `new Error(...)` calls the component, whose `useNavigate()` (src/components/Error.jsx:4) runs outside rendering and throws React's invalid-hook-call error; the page shows that error's text instead of the message | an account response with status 404: the details show the invalid-hook-call text, the same as for a 500 or for a failed followers request | the built-in `Error`, so the details read "GitHub user fetch failed (404)" or "Followers fetch failed." | high, not executed | Feed.LoadHome, Feed.StatusNeverShown | Feed.LoadHomeIntended, Feed.IntendedShowsStatus |
| src/pages/Repo.jsx:13-14, src/pages/Repo.jsx:56, src/pages/Repo.jsx:59 | the page stays mounted when `:id` changes and the effect reruns, but `error` is never cleared and `loading` never set again, so an error from one repository stays on screen for every later one | open a repository that loads, follow an "explore more" card to one whose request is not ok, then go back: the first repository loads in full and the page still reads 'Failed to fetch repository data' | each load starts with no error and the spinner on, so the page shows what the current repository's requests returned | medium, not executed | RepoDetail.LoadRepo, RepoDetail.StaleErrorStays, RepoDetail.BackAfterFailedRepo | RepoDetail.LoadRepoIntended, RepoDetail.IntendedIgnoresHistory |

=== FILE: age.dfy ===
/** The two "how long ago" labels: `getRepoAge` of the feed and profile
    pages (30-day months, 12-month years, so 360-day years) and `timeAgo`
    of the repository page (30-day months, 365-day years, singular for a
    count of 0 or 1). Elapsed time is an integer number of milliseconds. */
module Age {
  import opened Common
  import opened Decimal

  const MsPerDay := 1000 * 60 * 60 * 24

  datatype Unit = Day | Month | Year

  /** A `getRepoAge` label, "<count> <unit>s ago". */
  datatype Label = Label(unit: Unit, count: int)

  /** A `timeAgo` label, "<count> <unit>[s] ago". */
  datatype TimeLabel = TimeLabel(unit: Unit, count: int, plural: bool)

  /** `Math.floor(ms / d)`; Dafny's division rounds down for a positive divisor. */
  function FloorDiv(ms: int, d: int): (q: int)
    requires d > 0
    ensures d * q <= ms < d * (q + 1)
  {
    ms / d
  }

  /** Whole days elapsed. */
  function DiffDays(elapsedMs: int): int {
    FloorDiv(elapsedMs, MsPerDay)
  }

  /** A quotient is pinned down by the interval it puts `n` in. */
  lemma FloorDivUnique(n: int, d: int, p: int)
    requires d > 0
    requires d * p <= n < d * (p + 1)
    ensures FloorDiv(n, d) == p
  {
    var q := FloorDiv(n, d);
    if q < p {
      MulMonotone(d, q + 1, p);
    } else if q > p {
      MulMonotone(d, p + 1, q);
    }
  }

  /** Flooring twice is flooring once by the product. */
  lemma NestedFloorDiv(n: int, a: int, b: int)
    requires a > 0 && b > 0
    ensures FloorDiv(FloorDiv(n, a), b) == FloorDiv(n, a * b)
  {
    var q := FloorDiv(n, a);
    var p := FloorDiv(q, b);
    MulMonotone(a, b * p, q);
    MulMonotone(a, q + 1, b * (p + 1));
    assert a * (b * p) == (a * b) * p;
    assert a * (b * (p + 1)) == (a * b) * (p + 1);
    FloorDivUnique(n, a * b, p);
  }

  /** `getRepoAge`: days below 30 days, then months below 12 months, then
      years of 12 months. */
  function RepoAge(elapsedMs: int): (l: Label)
    ensures l.unit == Day <==> DiffDays(elapsedMs) < 30
    ensures l.unit == Day ==> l.count == DiffDays(elapsedMs)
    ensures l.unit == Month <==> 30 <= DiffDays(elapsedMs) < 360
    ensures l.unit == Month ==>
      1 <= l.count <= 11 && 30 * l.count <= DiffDays(elapsedMs) < 30 * (l.count + 1)
    ensures l.unit == Year ==>
      l.count >= 1 && 360 * l.count <= DiffDays(elapsedMs) < 360 * (l.count + 1)
  {
    var days := DiffDays(elapsedMs);
    if days < 30 then Label(Day, days)
    else
      var months := FloorDiv(days, 30);
      if months < 12 then Label(Month, months)
      else
        NestedFloorDiv(days, 30, 12);
        Label(Year, FloorDiv(months, 12))
  }

  /** `timeAgo`: years of 365 days if there is at least one, else months of
      30 days if there is at least one, else days; the 's' is added only
      for a count above one. */
  function TimeAgo(elapsedMs: int): (l: TimeLabel)
    ensures l.plural <==> l.count > 1
    ensures l.unit == Year <==> elapsedMs >= 365 * MsPerDay
    ensures l.unit == Year ==>
      l.count >= 1 && 365 * MsPerDay * l.count <= elapsedMs < 365 * MsPerDay * (l.count + 1)
    ensures l.unit == Month <==> 30 * MsPerDay <= elapsedMs < 365 * MsPerDay
    ensures l.unit == Month ==>
      1 <= l.count <= 12 && 30 * MsPerDay * l.count <= elapsedMs < 30 * MsPerDay * (l.count + 1)
    ensures l.unit == Day ==> l.count == DiffDays(elapsedMs) && l.count < 30
  {
    var years := FloorDiv(elapsedMs, MsPerDay * 365);
    var months := FloorDiv(elapsedMs, MsPerDay * 30);
    var days := FloorDiv(elapsedMs, MsPerDay);
    if years > 0 then TimeLabel(Year, years, years > 1)
    else if months > 0 then TimeLabel(Month, months, months > 1)
    else TimeLabel(Day, days, days > 1)
  }

  /** The unit word after the count in `getRepoAge`'s text. */
  function AgeSuffix(u: Unit): (w: string)
    ensures |w| > 0 && w[0] == ' '
  {
    match u
    case Day => " days ago"
    case Month => " months ago"
    case Year => " years ago"
  }

  /** The text `getRepoAge` returns. */
  function RepoAgeText(l: Label): string {
    Show(l.count) + AgeSuffix(l.unit)
  }

  /** The words after the count in `timeAgo`'s text. */
  function TimeSuffix(l: TimeLabel): (w: string)
    ensures |w| > 0 && w[0] == ' '
  {
    var word := match l.unit
      case Day => " day"
      case Month => " month"
      case Year => " year";
    word + (if l.plural then "s" else "") + " ago"
  }

  /** The text `timeAgo` returns. */
  function TimeAgoText(l: TimeLabel): string {
    Show(l.count) + TimeSuffix(l)
  }

  /** The characters before the first space. */
  function UpToSpace(s: string): (r: string)
    ensures r <= s
  {
    if |s| == 0 || s[0] == ' ' then [] else [s[0]] + UpToSpace(s[1..])
  }

  /** The number a label text starts with. */
  function LeadingCount(text: string): Option<int> {
    Parse(UpToSpace(text))
  }

  lemma {:induction false} UpToSpaceOfConcat(a: string, b: string)
    requires ' ' !in a
    requires |b| > 0 && b[0] == ' '
    ensures UpToSpace(a + b) == a
    decreases |a|
  {
    if |a| == 0 {
      assert a + b == b;
    } else {
      assert (a + b)[1..] == a[1..] + b;
      assert ' ' !in a[1..] by {
        forall i | 0 <= i < |a[1..]| ensures a[1..][i] != ' ' {
          assert a[1..][i] == a[i + 1];
        }
      }
      UpToSpaceOfConcat(a[1..], b);
    }
  }

  /** A printed count followed by a word reads back as that count. */
  lemma ShownCountReadsBack(n: int, suffix: string)
    requires |suffix| > 0 && suffix[0] == ' '
    ensures LeadingCount(Show(n) + suffix) == Some(n)
  {
    ShowHasNoSpace(n);
    ParseShow(n);
    UpToSpaceOfConcat(Show(n), suffix);
  }

  /** Both texts carry the label's count, readable back from the text. */
  lemma CountReadsBack(l: Label, t: TimeLabel)
    ensures LeadingCount(RepoAgeText(l)) == Some(l.count)
    ensures LeadingCount(TimeAgoText(t)) == Some(t.count)
  {
    ShownCountReadsBack(l.count, AgeSuffix(l.unit));
    ShownCountReadsBack(t.count, TimeSuffix(t));
  }

  /** Below thirty days both labels count whole days (including the
      negative counts of a date in the future). */
  lemma AgreeOnDays(elapsedMs: int)
    requires elapsedMs < 30 * MsPerDay
    ensures RepoAge(elapsedMs) == Label(Day, DiffDays(elapsedMs))
    ensures TimeAgo(elapsedMs).unit == Day && TimeAgo(elapsedMs).count == DiffDays(elapsedMs)
  {
  }

  /** From thirty days to 360 days both labels count the same months. */
  lemma AgreeOnMonths(elapsedMs: int)
    requires 30 * MsPerDay <= elapsedMs < 360 * MsPerDay
    ensures RepoAge(elapsedMs).unit == Month && TimeAgo(elapsedMs).unit == Month
    ensures RepoAge(elapsedMs).count == TimeAgo(elapsedMs).count
  {
    NestedFloorDiv(elapsedMs, MsPerDay, 30);
  }

  /** From 360 to 365 days the two disagree: one year against twelve months. */
  lemma DisagreeBeforeFullYear(elapsedMs: int)
    requires 360 * MsPerDay <= elapsedMs < 365 * MsPerDay
    ensures RepoAge(elapsedMs) == Label(Year, 1)
    ensures TimeAgo(elapsedMs) == TimeLabel(Month, 12, true)
  {
    NestedFloorDiv(elapsedMs, MsPerDay, 30);
  }

  /** Past a year the 360-day count is never below the 365-day count. */
  lemma RepoAgeYearsNotBelowTimeAgo(elapsedMs: int)
    requires elapsedMs >= 365 * MsPerDay
    ensures RepoAge(elapsedMs).unit == Year && TimeAgo(elapsedMs).unit == Year
    ensures RepoAge(elapsedMs).count >= TimeAgo(elapsedMs).count
  {
    var d := DiffDays(elapsedMs);
    NestedFloorDiv(elapsedMs, MsPerDay, 365);
    var y := TimeAgo(elapsedMs).count;
    assert 365 * y <= d;
    assert 360 * y <= d;
  }

  /** They can drift apart by whole years: 1,440 days are four 360-day
      years but only three 365-day years. */
  lemma YearsDrift()
    ensures RepoAge(1440 * MsPerDay) == Label(Year, 4)
    ensures TimeAgo(1440 * MsPerDay) == TimeLabel(Year, 3, true)
  {
  }

  /** The drift is unbounded: after 26,280·k days (73·k years of 360 days,
      72·k of 365) the two year counts differ by k. */
  lemma YearsDriftGrows(k: nat)
    requires k >= 1
    ensures RepoAge(26280 * k * MsPerDay) == Label(Year, 73 * k)
    ensures TimeAgo(26280 * k * MsPerDay) == TimeLabel(Year, 72 * k, true)
    ensures RepoAge(26280 * k * MsPerDay).count - TimeAgo(26280 * k * MsPerDay).count == k
  {
    var ms := 26280 * k * MsPerDay;
    FloorDivUnique(ms, MsPerDay, 26280 * k);
    assert DiffDays(ms) == 360 * (73 * k);
    FloorDivUnique(ms, MsPerDay * 365, 72 * k);
  }
}

=== FILE: auth.dfy ===
/** The sign-in / sign-up form. Both buttons behave alike apart from the
    endpoint they call: clear the error, show the spinner, wait for the
    authentication service, then either show its error or sign the user in
    and continue to the username step. */
module Auth {
  import opened Common
  import opened Session
  import opened Routes

  /** The form's own state: the error line and the spinner flag. */
  datatype Form = Form(errorMsg: string, loading: bool)

  /** Which button was pressed; the service call differs, the handling does not. */
  datatype Kind = SignUp | SignIn

  /** The service's answer: an error with its message, or the signed-in
      account's email. */
  datatype Reply = Rejected(message: string) | Accepted(email: string)

  /** Everything one attempt changes: the form, the App state, and where
      the app navigates (`None` for nowhere). */
  datatype Step = Step(form: Form, app: AppState, navigate: Option<Route>)

  function Initial(): Form {
    Form("", false)
  }

  /** Pressing a button: the old error disappears and the spinner shows. */
  function Begin(f: Form): (r: Form)
    ensures r.errorMsg == "" && r.loading
  {
    Form("", true)
  }

  /** The reply arrives. An error is shown and nothing else changes; a
      success stores the fresh signed-in user, without a username, in memory
      and in local storage, and navigates to "/username". */
  function Complete(f: Form, app: AppState, reply: Reply): (r: Step)
    ensures !r.form.loading
    ensures reply.Rejected? ==> r.form.errorMsg == reply.message && r.app == app && r.navigate.None?
    ensures reply.Accepted? ==> r.form.errorMsg == f.errorMsg
    ensures reply.Accepted? ==> r.app.user == Some(FromSession(reply.email)) && Synced(r.app)
    ensures reply.Accepted? ==> r.navigate == Some(NameSetup)
    ensures r.app.loading == app.loading && r.app.listening == app.listening
  {
    match reply
    case Rejected(message) => Step(Form(message, false), app, None)
    case Accepted(email) =>
      var u := FromSession(email);
      Step(Form(f.errorMsg, false), app.(user := Some(u), stored := Some(u)), Some(NameSetup))
  }

  /** `signUp` or `signIn`, from button press to reply. */
  function Attempt(kind: Kind, f: Form, app: AppState, reply: Reply): (r: Step)
    ensures !r.form.loading
    ensures reply.Accepted? ==> r.form.errorMsg == ""
  {
    Complete(Begin(f), app, reply)
  }

  /** Both buttons handle the reply the same way; only the service call
      they make differs. */
  lemma AttemptIgnoresKind(f: Form, app: AppState, reply: Reply)
    ensures Attempt(SignUp, f, app, reply) == Attempt(SignIn, f, app, reply)
  {
  }

  /** A successful attempt lands on the username form: "/username" renders
      it directly for the user just signed in. */
  lemma SuccessLandsOnUsernameForm(kind: Kind, f: Form, app: AppState, email: string)
    ensures var r := Attempt(kind, f, app, Accepted(email));
      && Resolve(r.navigate.value, r.app.user) == Render(UsernamePage)
      && Settle(r.navigate.value, r.app.user).2 == 0
  {
  }
}

=== FILE: common.dfy ===
/** Small shared vocabulary: optional values, the outcome of one network
    request, and a bounded prefix of a sequence. */
module Common {

  /** A value that may be absent (JavaScript `null` or `undefined`). */
  datatype Option<+T> = None | Some(value: T)

  /** The outcome of one `fetch` followed by decoding its body:
      the response was ok and decoded to `payload`; the response came back
      with a non-ok status; or the promise rejected (network error or a body
      that did not decode), which throws inside an `async` function. */
  datatype Response<+T> = Ok(payload: T) | NotOk | Thrown

  function Min(a: int, b: int): (m: int)
    ensures m <= a && m <= b
    ensures m == a || m == b
  {
    if a <= b then a else b
  }

  /** `xs.slice(0, n)`: the first `n` elements, or all of them when there
      are fewer. */
  function Take<T>(xs: seq<T>, n: nat): (r: seq<T>)
    ensures |r| == Min(n, |xs|)
    ensures r <= xs
  {
    if |xs| <= n then xs else xs[..n]
  }

  lemma MulMonotone(d: int, x: int, y: int)
    requires d >= 0 && x <= y
    ensures d * x <= d * y
  {
    assert d * y - d * x == d * (y - x);
  }
}

=== FILE: decimal.dfy ===
/** Decimal rendering of integers, as a JavaScript template literal
    `${n}` prints an integral number, together with its inverse. */
module Decimal {
  import opened Common

  predicate IsDigit(c: char) {
    '0' <= c <= '9'
  }

  predicate AllDigits(s: string) {
    forall i :: 0 <= i < |s| ==> IsDigit(s[i])
  }

  function DigitChar(d: nat): (c: char)
    requires d < 10
    ensures IsDigit(c)
  {
    ('0' as int + d) as char
  }

  function DigitValue(c: char): (d: nat)
    requires IsDigit(c)
    ensures d < 10
  {
    c as int - '0' as int
  }

  /** The shortest decimal numeral of `n`: digits only, no leading zero. */
  function ShowNat(n: nat): (s: string)
    ensures |s| >= 1
    ensures AllDigits(s)
    ensures s[0] == '0' ==> n == 0 && |s| == 1
    decreases n
  {
    if n < 10 then [DigitChar(n)] else ShowNat(n / 10) + [DigitChar(n % 10)]
  }

  /** `${n}` for an integral number: a minus sign for negatives. */
  function Show(n: int): (s: string)
    ensures |s| >= 1
    ensures n < 0 <==> s[0] == '-'
  {
    if n < 0 then "-" + ShowNat(-n) else ShowNat(n)
  }

  function ParseNat(s: string): nat
    requires AllDigits(s)
    decreases |s|
  {
    if |s| == 0 then 0 else ParseNat(s[..|s| - 1]) * 10 + DigitValue(s[|s| - 1])
  }

  /** Reads back a numeral written by `Show`; `None` for anything that is
      not an optional minus sign followed by at least one digit. */
  function Parse(s: string): Option<int> {
    if |s| >= 2 && s[0] == '-' && AllDigits(s[1..]) then Some(0 - ParseNat(s[1..]) as int)
    else if |s| >= 1 && AllDigits(s) then Some(ParseNat(s))
    else None
  }

  lemma {:induction false} ParseShowNat(n: nat)
    ensures ParseNat(ShowNat(n)) == n
    decreases n
  {
    if n >= 10 {
      var prefix := ShowNat(n / 10);
      var s := prefix + [DigitChar(n % 10)];
      assert s[..|s| - 1] == prefix;
      ParseShowNat(n / 10);
    }
  }

  /** Rendering loses nothing: the numeral reads back as the number. */
  lemma ParseShow(n: int)
    ensures Parse(Show(n)) == Some(n)
  {
    if n < 0 {
      ParseNegative(-n);
    } else {
      ParseNonNegative(n);
    }
  }

  lemma ParseNegative(m: nat)
    requires m > 0
    ensures Parse("-" + ShowNat(m)) == Some(0 - m as int)
  {
    var digits := ShowNat(m);
    var s := "-" + digits;
    assert s[1..] == digits;
    assert |s| >= 2 && s[0] == '-' && AllDigits(s[1..]);
    ParseShowNat(m);
  }

  lemma ParseNonNegative(n: nat)
    ensures Parse(ShowNat(n)) == Some(n)
  {
    var s := ShowNat(n);
    assert s[0] != '-' by {
      assert IsDigit(s[0]);
    }
    ParseShowNat(n);
  }

  /** Distinct numbers are printed differently. */
  lemma ShowInjective(a: int, b: int)
    ensures Show(a) == Show(b) <==> a == b
  {
    if Show(a) == Show(b) {
      ParseShow(a);
      ParseShow(b);
    }
  }

  /** A numeral never contains a space, so the first space of
      `Show(n) + tail` is where `tail` begins. */
  lemma ShowHasNoSpace(n: int)
    ensures ' ' !in Show(n)
  {
    var s := Show(n);
    if n < 0 {
      assert s == "-" + ShowNat(-n);
      assert forall i :: 1 <= i < |s| ==> s[i] == ShowNat(-n)[i - 1];
    }
  }
}

=== FILE: feed.dfy ===
/** The home page: loading the signed-in account and its followers, and the
    feed, which grows by one batch per `loadRandomRepos`: up to ten
    followers in random order, one random repository of each with its
    issue count, pull request count and languages, appended to what is
    already shown. Network answers, `Math.random` and the shuffle are
    parameters. */
module Feed {
  import opened Common

  datatype Follower = Follower(login: string)
  datatype Repo = Repo(id: int, name: string)
  datatype Details = Details(issues: nat, pulls: nat, languages: seq<string>)
  datatype Item = Item(follower: Follower, repo: Repo, details: Details)

  /** At most ten followers are sampled per batch. */
  const BatchSize := 10

  /** A value of `Math.random()`, a number in [0, 1), as `num / den`. */
  type Random = f: (nat, nat) | f.0 < f.1 witness (0, 1)

  lemma ScaledFloorBelow(num: nat, den: nat, len: nat)
    requires num < den && len > 0
    ensures (num * len) / den < len
  {
    var q := (num * len) / den;
    if q >= len {
      MulMonotone(den, len, q);
      MulMonotone(len, num + 1, den);
    }
  }

  /** `Math.floor(Math.random() * len)`. */
  function PickIndex(r: Random, len: nat): (i: nat)
    requires len > 0
    ensures i < len
  {
    ScaledFloorBelow(r.0, r.1, len);
    (r.0 * len) / r.1
  }

  // ---------------------------------------------------------------- sample

  function RemoveAt<T>(s: seq<T>, k: nat): (r: seq<T>)
    requires k < |s|
    ensures |r| == |s| - 1
  {
    s[..k] + s[k + 1..]
  }

  lemma RemoveAtMultiset<T>(s: seq<T>, k: nat)
    requires k < |s|
    ensures multiset(RemoveAt(s, k)) + multiset{s[k]} == multiset(s)
  {
    assert s == s[..k] + [s[k]] + s[k + 1..];
  }

  /** The position of the next draw among `size` remaining elements. */
  function Choice(picks: seq<nat>, size: nat): (k: nat)
    requires size > 0
    ensures k < size
  {
    if |picks| > 0 then picks[0] % size else 0
  }

  /** The choices left after one draw. */
  function RestPicks(picks: seq<nat>): seq<nat> {
    if |picks| > 0 then picks[1..] else []
  }

  /** Draws up to `n` elements of `pool` without replacement; the i-th
      draw takes the remaining element at position `picks[i]` modulo the
      number remaining (0 once `picks` runs out). Every order of the pool
      is some choice of `picks`, so this is "some permutation, then a
      prefix". */
  function Draw<T>(pool: seq<T>, picks: seq<nat>, n: nat): (r: seq<T>)
    ensures |r| == Min(n, |pool|)
    decreases n
  {
    if n == 0 || |pool| == 0 then []
    else
      var k := Choice(picks, |pool|);
      [pool[k]] + Draw(RemoveAt(pool, k), RestPicks(picks), n - 1)
  }

  /** A draw takes each element of the pool at most as often as it occurs. */
  lemma {:induction false} DrawWithoutReplacement<T>(pool: seq<T>, picks: seq<nat>, n: nat)
    ensures multiset(Draw(pool, picks, n)) <= multiset(pool)
    decreases n
  {
    if n > 0 && |pool| > 0 {
      var k := Choice(picks, |pool|);
      var rest := RemoveAt(pool, k);
      var d := Draw(rest, RestPicks(picks), n - 1);
      DrawWithoutReplacement(rest, RestPicks(picks), n - 1);
      RemoveAtMultiset(pool, k);
      assert Draw(pool, picks, n) == [pool[k]] + d;
      assert multiset([pool[k]] + d) == multiset{pool[k]} + multiset(d);
    }
  }

  /** `[...followers].sort(() => 0.5 - Math.random()).slice(0, 10)`. */
  function Sample(followers: seq<Follower>, picks: seq<nat>): (s: seq<Follower>)
    ensures |s| == Min(BatchSize, |followers|)
    ensures multiset(s) <= multiset(followers)
    ensures forall i :: 0 <= i < |s| ==> s[i] in followers
  {
    var s := Draw(followers, picks, BatchSize);
    DrawWithoutReplacement(followers, picks, BatchSize);
    assert forall i :: 0 <= i < |s| ==> s[i] in multiset(s);
    s
  }

  // ------------------------------------------------------- one follower

  /** The answers for one sampled follower: the repository list, the
      random number that picks one, and the three detail requests (the
      issue and pull-request lists by their lengths, the language map by
      its keys in order). */
  datatype Lookup = Lookup(
    repos: Response<seq<Repo>>,
    roll: Random,
    issues: Response<nat>,
    pulls: Response<nat>,
    languages: Response<seq<string>>)

  /** What one follower's promise settles to: rejected (which rejects the
      whole batch), `null`, or a feed item. */
  datatype Outcome = Rejected | Skipped | Produced(item: Item)

  function CountOrZero(r: Response<nat>): (n: nat)
    requires !r.Thrown?
    ensures r.Ok? ==> n == r.payload
    ensures r.NotOk? ==> n == 0
  {
    if r.Ok? then r.payload else 0
  }

  /** The per-follower promise of `loadRandomRepos`. */
  function FollowerResult(f: Follower, l: Lookup): (o: Outcome)
    // a failed or empty repository list gives `null`
    ensures l.repos.NotOk? ==> o == Skipped
    ensures l.repos.Ok? && |l.repos.payload| == 0 ==> o == Skipped
    // a request that throws rejects
    ensures o == Rejected <==>
      || l.repos.Thrown?
      || (l.repos.Ok? && |l.repos.payload| > 0 && (l.issues.Thrown? || l.pulls.Thrown? || l.languages.Thrown?))
    // a non-empty list with no thrown detail request gives an item
    ensures o.Produced? <==>
      l.repos.Ok? && |l.repos.payload| > 0 && !l.issues.Thrown? && !l.pulls.Thrown? && !l.languages.Thrown?
    // an item is about this follower and one of its repositories
    ensures o.Produced? ==> o.item.follower == f && l.repos.Ok? && o.item.repo in l.repos.payload
    ensures o.Produced? ==> o.item.repo == l.repos.payload[PickIndex(l.roll, |l.repos.payload|)]
    // failed detail requests count as empty
    ensures o.Produced? ==> o.item.details.issues == (if l.issues.Ok? then l.issues.payload else 0)
    ensures o.Produced? ==> o.item.details.pulls == (if l.pulls.Ok? then l.pulls.payload else 0)
    ensures o.Produced? ==> o.item.details.languages == (if l.languages.Ok? then l.languages.payload else [])
  {
    match l.repos
    case Thrown => Rejected
    case NotOk => Skipped
    case Ok(repos) =>
      if |repos| == 0 then Skipped
      else
        var repo := repos[PickIndex(l.roll, |repos|)];
        if l.issues.Thrown? || l.pulls.Thrown? || l.languages.Thrown? then Rejected
        else
          var langs := if l.languages.Ok? then l.languages.payload else [];
          Produced(Item(f, repo, Details(CountOrZero(l.issues), CountOrZero(l.pulls), langs)))
  }

  // ------------------------------------------------------------- a batch

  /** `.filter(Boolean)` over settled results: the items, in order. */
  function Collect(outcomes: seq<Outcome>): (items: seq<Item>)
    requires forall i :: 0 <= i < |outcomes| ==> !outcomes[i].Rejected?
    ensures |outcomes| == 0 ==> items == []
    ensures |items| <= |outcomes|
    ensures forall i :: 0 <= i < |items| ==> Produced(items[i]) in outcomes
    ensures forall i :: 0 <= i < |outcomes| && outcomes[i].Produced? ==> outcomes[i].item in items
    decreases |outcomes|
  {
    if |outcomes| == 0 then []
    else
      var rest := Collect(outcomes[1..]);
      assert forall i :: 1 <= i < |outcomes| ==> outcomes[i] == outcomes[1..][i - 1];
      match outcomes[0]
      case Produced(item) => [item] + rest
      case _ => rest
  }

  /** A single result contributes its item, or nothing for `null`. */
  lemma CollectOne(o: Outcome)
    requires !o.Rejected?
    ensures Collect([o]) == if o.Produced? then [o.item] else []
  {
    assert [o][1..] == [];
  }

  /** Filtering a concatenation is concatenating the filtered parts: with
      `CollectOne`, the items are exactly the produced items, in order and
      as often as they were produced. */
  lemma {:induction false} CollectAppend(a: seq<Outcome>, b: seq<Outcome>)
    requires forall i :: 0 <= i < |a| ==> !a[i].Rejected?
    requires forall i :: 0 <= i < |b| ==> !b[i].Rejected?
    ensures forall i :: 0 <= i < |a + b| ==> !(a + b)[i].Rejected?
    ensures Collect(a + b) == Collect(a) + Collect(b)
    decreases |a|
  {
    assert forall i :: 0 <= i < |a + b| ==> (a + b)[i] == if i < |a| then a[i] else b[i - |a|];
    if |a| == 0 {
      assert a + b == b;
    } else {
      assert (a + b)[1..] == a[1..] + b;
      CollectAppend(a[1..], b);
    }
  }

  /** The settled results of one batch, follower by follower. */
  function Outcomes(sample: seq<Follower>, lookups: seq<Lookup>): (o: seq<Outcome>)
    requires |lookups| == |sample|
    ensures |o| == |sample|
    ensures forall i :: 0 <= i < |o| ==> o[i] == FollowerResult(sample[i], lookups[i])
  {
    seq(|sample|, i requires 0 <= i < |sample| => FollowerResult(sample[i], lookups[i]))
  }

  /** `Promise.all` rejects when one of its promises does. */
  predicate AnyRejected(outcomes: seq<Outcome>) {
    exists i :: 0 <= i < |outcomes| && outcomes[i].Rejected?
  }

  /** The items a batch adds: `None` when `Promise.all` rejected, else the
      non-null results in sample order. */
  function Batch(sample: seq<Follower>, lookups: seq<Lookup>): (added: Option<seq<Item>>)
    requires |lookups| == |sample|
    ensures added.None? <==> AnyRejected(Outcomes(sample, lookups))
    ensures added.Some? ==> added.value == Collect(Outcomes(sample, lookups))
    ensures added.Some? ==> |added.value| <= |sample|
    ensures added.Some? ==> forall j :: 0 <= j < |added.value| ==> added.value[j].follower in sample
  {
    var outcomes := Outcomes(sample, lookups);
    if AnyRejected(outcomes) then None
    else
      var items := Collect(outcomes);
      assert forall j :: 0 <= j < |items| ==> items[j].follower in sample by {
        forall j | 0 <= j < |items| ensures items[j].follower in sample {
          var i :| 0 <= i < |outcomes| && outcomes[i] == Produced(items[j]);
          assert items[j].follower == sample[i];
        }
      }
      Some(items)
  }

  /** `[...prev, ...repoData]`. */
  function Append(feed: seq<Item>, added: seq<Item>, followers: seq<Follower>): (r: seq<Item>)
    requires forall j :: 0 <= j < |added| ==> added[j].follower in followers
    ensures feed <= r && |r| == |feed| + |added|
    ensures r[|feed|..] == added
    ensures forall i :: |feed| <= i < |r| ==> r[i].follower in followers
  {
    var r := feed + added;
    assert forall i :: |feed| <= i < |r| ==> r[i] == added[i - |feed|];
    r
  }

  /** The feed and the "loading more" flag. */
  datatype FeedState = FeedState(feed: seq<Item>, loadingMore: bool)

  /** `loadRandomRepos`: with no followers nothing happens; otherwise a
      sample of at most ten is looked up (`lookups[i]` answers for the i-th
      sampled follower) and the items found are appended, unless one
      promise rejected, in which case the feed is left as it was. */
  function LoadRandomRepos(s: FeedState, followers: seq<Follower>, picks: seq<nat>, lookups: seq<Lookup>): (r: FeedState)
    requires |lookups| == Min(BatchSize, |followers|)
    ensures |followers| == 0 ==> r == s
    ensures |followers| > 0 ==> !r.loadingMore
    // the old feed is kept, in order, and at most a batch is appended
    ensures s.feed <= r.feed
    ensures |r.feed| <= |s.feed| + BatchSize
    // every new item is about a follower
    ensures forall i :: |s.feed| <= i < |r.feed| ==> r.feed[i].follower in followers
    // a rejected batch adds nothing; otherwise the new tail is exactly the
    // items of the sampled followers, in sample order
    ensures |followers| > 0 && AnyRejected(Outcomes(Sample(followers, picks), lookups)) ==> r.feed == s.feed
    ensures |followers| > 0 && !AnyRejected(Outcomes(Sample(followers, picks), lookups)) ==>
      r.feed[|s.feed|..] == Collect(Outcomes(Sample(followers, picks), lookups))
  {
    if |followers| == 0 then s
    else
      var sample := Sample(followers, picks);
      match Batch(sample, lookups)
      case None => FeedState(s.feed, false)
      case Some(added) => FeedState(Append(s.feed, added, followers), false)
  }

  /** A sampled follower whose lookups all answered, with a non-empty
      repository list, gets an item in the new part of the feed, about them
      and one of their repositories, provided no other follower's request
      threw. */
  lemma FollowerReachesFeed(s: FeedState, followers: seq<Follower>, picks: seq<nat>, lookups: seq<Lookup>, i: nat)
    requires |lookups| == Min(BatchSize, |followers|)
    requires i < |lookups|
    ensures var l := lookups[i];
      && !AnyRejected(Outcomes(Sample(followers, picks), lookups))
      && l.repos.Ok? && |l.repos.payload| > 0 && !l.issues.Thrown? && !l.pulls.Thrown? && !l.languages.Thrown?
      ==>
      var r := LoadRandomRepos(s, followers, picks, lookups);
      exists j :: |s.feed| <= j < |r.feed| &&
        r.feed[j].follower == Sample(followers, picks)[i] && r.feed[j].repo in l.repos.payload
  {
    var l := lookups[i];
    if !AnyRejected(Outcomes(Sample(followers, picks), lookups))
      && l.repos.Ok? && |l.repos.payload| > 0 && !l.issues.Thrown? && !l.pulls.Thrown? && !l.languages.Thrown?
    {
      var sample := Sample(followers, picks);
      var o := FollowerResult(sample[i], l);
      var k := ItemPosition(Outcomes(sample, lookups), i);
      var added := Collect(Outcomes(sample, lookups));
      var r := LoadRandomRepos(s, followers, picks, lookups);
      assert r.feed[|s.feed|..] == added;
      assert r.feed[|s.feed| + k] == added[k] == o.item;
    }
  }

  /** Where the item of the i-th result lands in the filtered list. */
  lemma ItemPosition(outcomes: seq<Outcome>, i: nat) returns (k: nat)
    requires forall j :: 0 <= j < |outcomes| ==> !outcomes[j].Rejected?
    requires i < |outcomes|
    ensures outcomes[i].Produced? ==> k < |Collect(outcomes)| && Collect(outcomes)[k] == outcomes[i].item
  {
    var items := Collect(outcomes);
    if outcomes[i].Produced? {
      assert outcomes[i].item in items;
      k :| 0 <= k < |items| && items[k] == outcomes[i].item;
    } else {
      k := 0;
    }
  }

  /** Every item a batch adds comes from one sampled follower's own
      lookups: the batch never makes up an item. */
  lemma FeedItemsComeFromLookups(s: FeedState, followers: seq<Follower>, picks: seq<nat>, lookups: seq<Lookup>, j: nat)
    requires |lookups| == Min(BatchSize, |followers|)
    ensures var r := LoadRandomRepos(s, followers, picks, lookups);
      |s.feed| <= j < |r.feed| ==>
        exists i :: 0 <= i < |lookups| && FollowerResult(Sample(followers, picks)[i], lookups[i]) == Produced(r.feed[j])
  {
    var r := LoadRandomRepos(s, followers, picks, lookups);
    if |s.feed| <= j < |r.feed| {
      var sample := Sample(followers, picks);
      var outcomes := Outcomes(sample, lookups);
      assert !AnyRejected(outcomes);
      var added := Collect(outcomes);
      assert r.feed[|s.feed|..] == added;
      assert r.feed[j] == added[j - |s.feed|];
      assert Produced(added[j - |s.feed|]) in outcomes;
    }
  }

  /** The feed item the scroll trigger is attached to: the last one. */
  function ScrollTarget(feed: seq<Item>): (t: Option<nat>)
    ensures t.Some? <==> |feed| > 0
    ensures t.Some? ==> t.value + 1 == |feed|
  {
    if |feed| == 0 then None else Some(|feed| - 1)
  }

  /** After a batch the trigger sits on the last new item, or stays where
      it was when nothing was added. */
  lemma ScrollTargetAfterLoad(s: FeedState, followers: seq<Follower>, picks: seq<nat>, lookups: seq<Lookup>)
    requires |lookups| == Min(BatchSize, |followers|)
    ensures var r := LoadRandomRepos(s, followers, picks, lookups);
      && (|r.feed| == |s.feed| ==> ScrollTarget(r.feed) == ScrollTarget(s.feed))
      && (|r.feed| > |s.feed| ==> ScrollTarget(r.feed).value >= |s.feed|)
  {
  }

  // ------------------------------------------------------- page loading

  /** What the error screen of the home page carries. The module imports the
      `Error` component under the name of the built-in `Error`, so the
      `new Error(...)` of a non-ok response calls the component, whose
      `useNavigate` runs outside rendering and throws React's
      invalid-hook-call error: both non-ok responses end in that same
      error (`HookOutsideRender`). A request that rejects, or a body that
      does not decode, shows its own error (`RequestThrew`).
      `UserFetchFailed` and `FollowersFetchFailed` are the errors the
      messages were written for. */
  datatype HomeError =
    | HookOutsideRender
    | RequestThrew
    | UserFetchFailed(status: int)
    | FollowersFetchFailed

  /** The page after `fetchGitHub`: the account's login, its followers, the
      error shown instead of the page, and the spinner flag. */
  datatype HomeState = HomeState(account: Option<string>, followers: seq<Follower>, error: Option<HomeError>, loading: bool)

  /** `fetchGitHub` as written. `status` is the status of a non-ok account
      response; it never reaches the page. */
  function LoadHome(user: Response<string>, status: int, followers: Response<seq<Follower>>): (h: HomeState)
    ensures !h.loading
    ensures h.error.None? <==> user.Ok? && followers.Ok?
    ensures h.error.None? ==> h.followers == followers.payload
    ensures h.error.Some? ==> h.followers == []
    ensures h.account.Some? <==> user.Ok?
    ensures user.Ok? ==> h.account == Some(user.payload)
    // a non-ok answer to either request shows the same invalid-hook-call error
    ensures user.NotOk? || (user.Ok? && followers.NotOk?) ==> h.error == Some(HookOutsideRender)
    ensures user.Thrown? || (user.Ok? && followers.Thrown?) ==> h.error == Some(RequestThrew)
  {
    match user
    case Thrown => HomeState(None, [], Some(RequestThrew), false)
    case NotOk => HomeState(None, [], Some(HookOutsideRender), false)
    case Ok(login) =>
      match followers
      case Thrown => HomeState(Some(login), [], Some(RequestThrew), false)
      case NotOk => HomeState(Some(login), [], Some(HookOutsideRender), false)
      case Ok(fs) => HomeState(Some(login), fs, None, false)
  }

  /** As written, the page cannot tell a 404 from a 500 on the account,
      nor a failed account request from a failed followers request. */
  lemma StatusNeverShown(login: string, fs: seq<Follower>)
    ensures LoadHome(NotOk, 404, Ok(fs)).error == LoadHome(NotOk, 500, Ok(fs)).error
    ensures LoadHome(NotOk, 404, Ok(fs)).error == LoadHome(Ok(login), 200, NotOk).error
  {
  }

  /** `fetchGitHub` with the built-in `Error`, as its messages intend: a
      non-ok account response shows its status, a non-ok followers
      response its own message. */
  function LoadHomeIntended(user: Response<string>, status: int, followers: Response<seq<Follower>>): (h: HomeState)
    ensures !h.loading
    ensures h.error.None? <==> user.Ok? && followers.Ok?
    ensures h.error.None? ==> h.followers == followers.payload
    ensures h.error.Some? ==> h.followers == []
    ensures h.account.Some? <==> user.Ok?
    ensures user.Ok? ==> h.account == Some(user.payload)
    ensures user.NotOk? ==> h.error == Some(UserFetchFailed(status))
    ensures user.Ok? && followers.NotOk? ==> h.error == Some(FollowersFetchFailed)
  {
    match user
    case Thrown => HomeState(None, [], Some(RequestThrew), false)
    case NotOk => HomeState(None, [], Some(UserFetchFailed(status)), false)
    case Ok(login) =>
      match followers
      case Thrown => HomeState(Some(login), [], Some(RequestThrew), false)
      case NotOk => HomeState(Some(login), [], Some(FollowersFetchFailed), false)
      case Ok(fs) => HomeState(Some(login), fs, None, false)
  }

  /** The intended page tells the failures apart, and reports the status;
      apart from the error it shows, it agrees with the page as written. */
  lemma IntendedShowsStatus(user: Response<string>, a: int, b: int, followers: Response<seq<Follower>>)
    ensures user.NotOk? ==>
      (LoadHomeIntended(user, a, followers).error == LoadHomeIntended(user, b, followers).error <==> a == b)
    ensures user.NotOk? ==> LoadHomeIntended(user, a, followers).error != LoadHomeIntended(Ok("x"), a, NotOk).error
    ensures LoadHomeIntended(user, a, followers).(error := None) == LoadHome(user, a, followers).(error := None)
    ensures LoadHomeIntended(user, a, followers).error.None? <==> LoadHome(user, a, followers).error.None?
  {
  }

  /** The first batch is requested exactly when followers were loaded. */
  predicate FirstBatchRequested(h: HomeState) {
    |h.followers| > 0
  }

  /** The first batch is requested exactly when the account and a
      non-empty follower list both loaded. */
  lemma FirstBatchOnlyWithFollowers(user: Response<string>, status: int, followers: Response<seq<Follower>>)
    ensures FirstBatchRequested(LoadHome(user, status, followers)) <==>
      user.Ok? && followers.Ok? && |followers.payload| > 0
    ensures FirstBatchRequested(LoadHomeIntended(user, status, followers)) <==>
      FirstBatchRequested(LoadHome(user, status, followers))
  {
  }
}

=== FILE: onboarding.dfy ===
/** The session lifecycle as a whole: the events that change the App
    state, the invariant they keep (the stored copy mirrors the in-memory
    user), the order in which they move a user through the three
    onboarding stages, and the path from sign-in to the feed. */
module Onboarding {
  import opened Common
  import opened Text
  import opened Session
  import opened Routes
  import Auth
  import UsernameSetup

  datatype Event =
    | AuthEvent(session: Option<string>)                // auth-change listener
    | LoggedOut                                         // `logout`
    | AuthReplied(reply: Auth.Reply)                    // sign-in or sign-up answered
    | UsernameSubmitted(input: string, insert: UsernameSetup.InsertReply)

  /** The App state after one event. A username can only be submitted on
      the username page, which is mounted for signed-in users only; for
      anyone else the event does nothing. */
  function Step(s: AppState, e: Event): (r: AppState)
    ensures r.loading == s.loading && r.listening == s.listening
  {
    match e
    case AuthEvent(session) => AuthChange(s, session)
    case LoggedOut => Logout(s)
    case AuthReplied(reply) => Auth.Attempt(Auth.SignIn, Auth.Initial(), s, reply).app
    case UsernameSubmitted(input, insert) =>
      if LoggedIn(s.user) then
        UsernameSetup.HandleSubmit(UsernameSetup.Initial().(input := input, loading := false), s, insert).app
      else s
  }

  function Run(s: AppState, events: seq<Event>): AppState
    decreases |events|
  {
    if |events| == 0 then s else Run(Step(s, events[0]), events[1..])
  }

  /** Every event leaves the stored copy equal to the in-memory user. */
  lemma StepKeepsSync(s: AppState, e: Event)
    requires Synced(s)
    ensures Synced(Step(s, e))
  {
    if e.UsernameSubmitted? && LoggedIn(s.user) {
      var f := UsernameSetup.Initial().(input := e.input, loading := false);
      if IsBlank(e.input) {
        assert UsernameSetup.HandleSubmit(f, s, e.insert).app == s;
      }
    }
  }

  /** From startup on, whatever happens, the two copies agree. */
  lemma {:induction false} RunKeepsSync(stored: Option<User>, session: Option<string>, events: seq<Event>)
    ensures Synced(Run(Startup(stored, session), events))
  {
    RunFromSynced(Startup(stored, session), events);
  }

  lemma {:induction false} RunFromSynced(s: AppState, events: seq<Event>)
    requires Synced(s)
    ensures Synced(Run(s, events))
    decreases |events|
  {
    if |events| > 0 {
      StepKeepsSync(s, events[0]);
      RunFromSynced(Step(s, events[0]), events[1..]);
    }
  }

  /** No event skips a stage: an anonymous user cannot become named in one
      step. Any stage can fall back to anonymous (logout) or to signed-in
      (an auth event drops a chosen username). */
  lemma StepMovesOneStage(s: AppState, e: Event)
    ensures StageOf(s.user) == Anonymous ==> StageOf(Step(s, e).user) != Named
    ensures StageOf(Step(s, e).user) == Named ==> StageOf(s.user) != Anonymous
  {
    if e.UsernameSubmitted? && LoggedIn(s.user) {
      var f := UsernameSetup.Initial().(input := e.input, loading := false);
      if IsBlank(e.input) {
        assert UsernameSetup.HandleSubmit(f, s, e.insert).app == s;
      }
    }
  }

  /** An auth event carrying a user forgets the username chosen earlier. */
  lemma AuthEventDropsUsername(s: AppState, email: string)
    requires s.listening && StageOf(s.user) == Named
    ensures StageOf(Step(s, AuthEvent(Some(email))).user) == SignedIn
    ensures Settle(HomeFeed, Step(s, AuthEvent(Some(email))).user).0 == UsernamePage
  {
  }

  /** The happy path: a first visit shows the sign-in form; a successful
      sign-in shows the username form; a non-blank username opens the feed,
      from "/" as well as from "/home". */
  lemma OnboardingReachesHome(email: string, input: string, insert: UsernameSetup.InsertReply)
    requires !IsBlank(input)
    ensures var s0 := Startup(None, None);
      && Settle(Root, s0.user).0 == AuthPage
      && var s1 := Step(s0, AuthReplied(Auth.Accepted(email)));
      && Settle(NameSetup, s1.user).0 == UsernamePage
      && var s2 := Step(s1, UsernameSubmitted(input, insert));
      && Settle(Root, s2.user).0 == HomePage
      && Settle(HomeFeed, s2.user) == (HomePage, HomeFeed, 0)
  {
    var s0 := Startup(None, None);
    assert s0.user.None?;
    var s1 := Step(s0, AuthReplied(Auth.Accepted(email)));
    assert s1.user == Some(FromSession(email));
    var f := UsernameSetup.Initial().(input := input, loading := false);
    UsernameSetup.SubmitUnlocksHome(f, s1, insert);
    var s2 := Step(s1, UsernameSubmitted(input, insert));
    assert s2 == UsernameSetup.HandleSubmit(f, s1, insert).app;
    assert StageOf(s2.user) == Named;
  }
}

=== FILE: profile.dfy ===
/** The profile page: whose profile to show, what the page holds after its
    requests settle, the followers/following dialog, the list of
    registered names, and logout. */
module Profile {
  import opened Common
  import opened Session
  import opened Routes

  datatype Person = Person(login: string)
  datatype RepoCard = RepoCard(id: int, name: string)

  /** `username || user?.username`: the route parameter when it is a
      non-empty string, else the signed-in user's username, which may be
      absent (`undefined`). */
  function ProfileName(param: Option<string>, user: Option<User>): (name: Option<string>)
    ensures param.Some? && param.value != "" ==> name == param
    ensures param.None? || param.value == "" ==> name == (if user.Some? then user.value.username else None)
  {
    if param.Some? && param.value != "" then param
    else if user.Some? then user.value.username
    else None
  }

  /** "/profile" shows the signed-in user's own profile once a username is
      chosen; "/profile/:username" shows the named one. */
  lemma ProfileNameByRoute(user: Option<User>, login: string)
    requires StageOf(user) == Named
    ensures ProfileName(None, user) == user.value.username
    ensures login != "" ==> ProfileName(Some(login), user) == Some(login)
  {
  }

  /** The login in the request paths: `encodeURIComponent(uname)`. An
      absent name is `undefined`, which the function turns into the string
      "undefined"; a GitHub login has only letters, digits and hyphens,
      which it leaves as they are. */
  function RequestedLogin(name: Option<string>): (login: string)
    ensures name.None? ==> login == "undefined"
    ensures name.Some? ==> login == name.value
  {
    match name
    case None => "undefined"
    case Some(n) => n
  }

  /** The guard lets a signed-in user without a username onto "/profile".
      There `uname` is `undefined`, so the page requests the account whose
      login is "undefined", exactly as "/profile/undefined" would. */
  lemma OwnProfileWithoutUsername(user: Option<User>)
    requires StageOf(user) == SignedIn && user.value.username.None?
    ensures Resolve(OwnProfile, user) == Render(ProfilePage)
    ensures ProfileName(None, user).None?
    ensures RequestedLogin(ProfileName(None, user)) == "undefined"
    ensures RequestedLogin(ProfileName(None, user)) == RequestedLogin(ProfileName(Some("undefined"), user))
  {
  }

  /** The page's state: the account, its repositories and both lists, and
      the spinner flag. */
  datatype ProfileState = ProfileState(
    account: Option<string>,
    repos: seq<RepoCard>,
    followers: seq<Person>,
    following: seq<Person>,
    loading: bool)

  /** Neither the repositories request nor either list request threw, so
      `fetchData` reaches the lines that set the lists. */
  predicate ListsSettle(repos: Response<seq<RepoCard>>, followers: Response<seq<Person>>, following: Response<seq<Person>>) {
    !repos.Thrown? && !followers.Thrown? && !following.Thrown?
  }

  /** The state when the page is first mounted. */
  const Mounted := ProfileState(None, [], [], [], true)

  /** `fetchData`: account, then repositories, then followers and following
      together. It starts from whatever the page holds, since a change of
      the `:username` parameter reruns it on the same page without resetting
      anything. A failed or thrown account request throws, so nothing is
      set; a thrown repositories request stops before the lists; a thrown
      list request rejects the pair. The spinner stops in every case. */
  function LoadProfile(
    prior: ProfileState,
    account: Response<string>,
    repos: Response<seq<RepoCard>>,
    followers: Response<seq<Person>>,
    following: Response<seq<Person>>): (p: ProfileState)
    ensures !p.loading
    // the account is replaced only by an ok answer
    ensures account.Ok? ==> p.account == Some(account.payload)
    ensures !account.Ok? ==> p == prior.(loading := false)
    // the repositories are replaced exactly when their request was ok
    ensures account.Ok? ==> p.repos == if repos.Ok? then repos.payload else prior.repos
    // each list is replaced when its request was ok and neither list request
    // nor the repositories request threw; otherwise it is kept
    ensures account.Ok? && ListsSettle(repos, followers, following) && followers.Ok? ==> p.followers == followers.payload
    ensures account.Ok? && !(ListsSettle(repos, followers, following) && followers.Ok?) ==> p.followers == prior.followers
    ensures account.Ok? && ListsSettle(repos, followers, following) && following.Ok? ==> p.following == following.payload
    ensures account.Ok? && !(ListsSettle(repos, followers, following) && following.Ok?) ==> p.following == prior.following
  {
    if !account.Ok? then prior.(loading := false)
    else
      var p := prior.(account := Some(account.payload),
                      repos := if repos.Ok? then repos.payload else prior.repos,
                      loading := false);
      if !ListsSettle(repos, followers, following) then p
      else p.(followers := if followers.Ok? then followers.payload else prior.followers,
              following := if following.Ok? then following.payload else prior.following)
  }

  /** On first mount a failed account request leaves the page empty, and
      anything shown came from an ok answer. */
  lemma FirstLoad(
    account: Response<string>, repos: Response<seq<RepoCard>>,
    followers: Response<seq<Person>>, following: Response<seq<Person>>)
    ensures var p := LoadProfile(Mounted, account, repos, followers, following);
      && (p.account.Some? <==> account.Ok?)
      && (!account.Ok? ==> p.repos == [] && p.followers == [] && p.following == [])
      && (p.repos != [] ==> repos.Ok? && p.repos == repos.payload)
      && (p.followers != [] ==> followers.Ok? && p.followers == followers.payload)
      && (p.following != [] ==> following.Ok? && p.following == following.payload)
  {
  }

  /** After a change of profile, a failed account request keeps showing the
      previous profile's account and lists. */
  lemma FailedReloadKeepsPrevious(
    prior: ProfileState, account: Response<string>, repos: Response<seq<RepoCard>>,
    followers: Response<seq<Person>>, following: Response<seq<Person>>)
    requires !account.Ok?
    ensures var p := LoadProfile(prior, account, repos, followers, following);
      p.account == prior.account && p.repos == prior.repos
      && p.followers == prior.followers && p.following == prior.following
  {
  }

  /** Loading again with the same answers changes nothing more. */
  lemma LoadProfileIdempotent(
    prior: ProfileState, account: Response<string>, repos: Response<seq<RepoCard>>,
    followers: Response<seq<Person>>, following: Response<seq<Person>>)
    ensures var p := LoadProfile(prior, account, repos, followers, following);
      LoadProfile(p, account, repos, followers, following) == p
  {
  }

  /** The dialog: whether it shows, and which list was asked for. */
  datatype Dialog = Dialog(show: bool, kind: string)

  const InitialDialog := Dialog(false, "")

  function OpenDialog(d: Dialog, kind: string): (r: Dialog)
    ensures r.show && r.kind == kind
  {
    Dialog(true, kind)
  }

  function CloseDialog(d: Dialog): (r: Dialog)
    ensures !r.show && r.kind == d.kind
  {
    d.(show := false)
  }

  /** `dialogData`: followers for the kind 'followers', following for any
      other kind, the empty kind of a dialog never opened included. */
  function DialogData(d: Dialog, followers: seq<Person>, following: seq<Person>): (r: seq<Person>)
    ensures d.kind == "followers" ==> r == followers
    ensures d.kind != "followers" ==> r == following
  {
    if d.kind == "followers" then followers else following
  }

  /** Each button opens its own list, and closing keeps the choice. */
  lemma DialogShowsChosenList(d: Dialog, followers: seq<Person>, following: seq<Person>)
    ensures DialogData(OpenDialog(d, "followers"), followers, following) == followers
    ensures DialogData(OpenDialog(d, "following"), followers, following) == following
    ensures DialogData(InitialDialog, followers, following) == following
    ensures DialogData(CloseDialog(d), followers, following) == DialogData(d, followers, following)
  {
  }

  /** The answer of the query for registered names. */
  datatype NamesQuery = NamesQuery(data: Option<seq<string>>, failed: bool)

  /** `fetchExplore` (and `fetchUsers` of the home page): the list is
      replaced only by data that came with no error. */
  function RefreshExplore(current: seq<string>, q: NamesQuery): (r: seq<string>)
    ensures !q.failed && q.data.Some? ==> r == q.data.value
    ensures q.failed || q.data.None? ==> r == current
  {
    if !q.failed && q.data.Some? then q.data.value else current
  }

  /** Repeating a query changes nothing more, and a failed query keeps the
      list the last good one left. */
  lemma RefreshExploreKeepsLastGood(current: seq<string>, good: seq<string>, q: NamesQuery)
    ensures RefreshExplore(RefreshExplore(current, q), q) == RefreshExplore(current, q)
    ensures q.failed ==> RefreshExplore(RefreshExplore(current, NamesQuery(Some(good), false)), q) == good
  {
  }

  /** `handleLogout`: log out, then go to "/", which shows the sign-in form. */
  function HandleLogout(app: AppState): (r: (AppState, Route))
    ensures r.0.user.None? && r.0.stored.None?
    ensures Resolve(r.1, r.0.user) == Render(AuthPage)
  {
    (Logout(app), Root)
  }
}

=== FILE: repo.dfy ===
/** The repository page: the repository, its languages, its first
    contributors, the owner's other repositories, and the stats tiles. */
module RepoDetail {
  import opened Common

  datatype Repo = Repo(id: int, name: string, owner: string, stars: int, forks: int, openIssues: int)
  datatype Contributor = Contributor(login: string)

  /** The contributors strip shows at most six. */
  const MaxContributors := 6
  /** The "explore more" row shows at most ten. */
  const MaxOtherRepos := 10

  /** `contribs.slice(0, 6)`. */
  function Contributors(all: seq<Contributor>): (r: seq<Contributor>)
    ensures |r| == Min(MaxContributors, |all|)
    ensures forall i :: 0 <= i < |r| ==> r[i] == all[i]
  {
    Take(all, MaxContributors)
  }

  /** `b` contains the elements of `a`, in the same order. */
  predicate SubsequenceOf<T(==)>(a: seq<T>, b: seq<T>)
    decreases |b|
  {
    if |a| == 0 then true
    else if |b| == 0 then false
    else if a[0] == b[0] then SubsequenceOf(a[1..], b[1..])
    else SubsequenceOf(a, b[1..])
  }

  /** `userRepos.filter((r) => r.id !== data.id)`: every repository of the
      owner except those with the current id, in their order. */
  function OtherRepos(repos: seq<Repo>, id: int): (r: seq<Repo>)
    ensures forall i :: 0 <= i < |r| ==> r[i].id != id
    ensures forall x :: x in repos && x.id != id ==> x in r
    ensures forall x :: x in r ==> x in repos
    ensures SubsequenceOf(r, repos)
    decreases |repos|
  {
    if |repos| == 0 then []
    else
      var rest := OtherRepos(repos[1..], id);
      assert forall x :: x in repos ==> x == repos[0] || x in repos[1..];
      if repos[0].id != id then [repos[0]] + rest
      else
        SkipHead(rest, repos);
        rest
  }

  /** `filter` keeps each repository with another id as often as it occurs
      and drops every one with the current id. */
  lemma {:induction false} OtherReposMultiplicity(repos: seq<Repo>, id: int)
    ensures forall x :: multiset(OtherRepos(repos, id))[x] == if x.id == id then 0 else multiset(repos)[x]
    decreases |repos|
  {
    if |repos| > 0 {
      var rest := OtherRepos(repos[1..], id);
      OtherReposMultiplicity(repos[1..], id);
      assert repos == [repos[0]] + repos[1..];
      assert multiset(repos) == multiset{repos[0]} + multiset(repos[1..]);
      if repos[0].id != id {
        assert OtherRepos(repos, id) == [repos[0]] + rest;
        assert multiset([repos[0]] + rest) == multiset{repos[0]} + multiset(rest);
      } else {
        assert OtherRepos(repos, id) == rest;
      }
    }
  }

  /** A subsequence of `b[1..]` is a subsequence of `b`. */
  lemma {:induction false} SkipHead<T>(a: seq<T>, b: seq<T>)
    requires |b| > 0 && SubsequenceOf(a, b[1..])
    ensures SubsequenceOf(a, b)
    decreases |b|, 1
  {
    if |a| > 0 && a[0] == b[0] {
      DropHead(a, b[1..]);
    }
  }

  /** Dropping the first element keeps a subsequence a subsequence. */
  lemma {:induction false} DropHead<T>(a: seq<T>, c: seq<T>)
    requires |a| > 0 && SubsequenceOf(a, c)
    ensures SubsequenceOf(a[1..], c)
    decreases |c|, 2
  {
    if a[0] == c[0] {
      SkipHead(a[1..], c);
    } else {
      DropHead(a, c[1..]);
      SkipHead(a[1..], c);
    }
  }

  /** `otherRepos.slice(0, 10)`: what the row displays. */
  function DisplayedOthers(others: seq<Repo>): (r: seq<Repo>)
    ensures |r| == Min(MaxOtherRepos, |others|) && r <= others
  {
    Take(others, MaxOtherRepos)
  }

  /** The four stats tiles, label and value. */
  function StatTiles(repo: Repo): (tiles: seq<(string, int)>)
    ensures |tiles| == 4
    ensures tiles[0] == ("Stars", repo.stars)
    ensures tiles[1] == ("Forks", repo.forks)
    ensures tiles[2] == ("Issues", repo.openIssues)
    ensures tiles[3].0 == "Pulls"
  {
    [("Stars", repo.stars), ("Forks", repo.forks), ("Issues", repo.openIssues), ("Pulls", repo.forks)]
  }

  /** The 'Pulls' tile shows the fork count, the same value as 'Forks'. */
  lemma PullsTileShowsForks(repo: Repo)
    ensures StatTiles(repo)[3] == ("Pulls", repo.forks)
    ensures StatTiles(repo)[3].1 == StatTiles(repo)[1].1
  {
  }

  /** The tiles show the star, fork and open-issue counts and nothing else:
      two repositories have the same tiles exactly when those counts agree. */
  lemma TilesDetermineCounts(a: Repo, b: Repo)
    ensures StatTiles(a) == StatTiles(b) <==>
      a.stars == b.stars && a.forks == b.forks && a.openIssues == b.openIssues
  {
    if StatTiles(a) == StatTiles(b) {
      assert StatTiles(a)[0] == StatTiles(b)[0];
      assert StatTiles(a)[1] == StatTiles(b)[1];
      assert StatTiles(a)[2] == StatTiles(b)[2];
    }
  }

  /** The row shows ten of the other repositories when there are at least
      ten, all of them otherwise, and always the first ones in order. */
  lemma DisplayedOthersAreFirstTen(repos: seq<Repo>, id: int)
    ensures var shown := DisplayedOthers(OtherRepos(repos, id));
      && |shown| == Min(MaxOtherRepos, |OtherRepos(repos, id)|)
      && (|OtherRepos(repos, id)| <= MaxOtherRepos ==> shown == OtherRepos(repos, id))
      && forall i :: 0 <= i < |shown| ==> shown[i] == OtherRepos(repos, id)[i] && shown[i].id != id
  {
  }

  /** A decoded response body: a list, some other JSON value (an error
      object, say), or no value at all (rejected or undecodable). */
  datatype Body<T> = List(items: seq<T>) | NotAList | Broken

  datatype RepoError = FetchFailed | RequestFailed

  /** The page's state. The same page stays mounted when the `:id`
      parameter changes, so a load starts from whatever it holds. */
  datatype RepoState = RepoState(
    repo: Option<Repo>,
    languages: seq<string>,
    contributors: seq<Contributor>,
    others: seq<Repo>,
    loading: bool,
    error: Option<RepoError>)

  /** The state when the page is first mounted. */
  const FreshPage := RepoState(None, [], [], [], true, None)

  /** All four requests answered as the page expects. */
  predicate Complete(
    main: Response<Repo>, languages: Option<seq<string>>,
    contributors: Body<Contributor>, ownerRepos: Body<Repo>)
  {
    main.Ok? && languages.Some? && contributors.List? && ownerRepos.List?
  }

  /** `fetchRepoData`, run by the effect on `[id]`. Only the repository
      request's status is checked; the other bodies are used as they decode.
      The language map's keys are the languages (`None` when that body does
      not decode); a contributors or repositories body that is not a list
      makes `slice` or `filter` throw. The fields are set one after another,
      so a throw keeps what was set before it. Any throw records an error,
      and nothing ever clears one or turns the spinner back on. */
  function LoadRepo(
    prior: RepoState,
    main: Response<Repo>,
    languages: Option<seq<string>>,
    contributors: Body<Contributor>,
    ownerRepos: Body<Repo>): (p: RepoState)
    ensures !p.loading
    // a failed repository request changes nothing but the error and the spinner
    ensures main.NotOk? ==> p == prior.(loading := false, error := Some(FetchFailed))
    ensures main.Thrown? ==> p == prior.(loading := false, error := Some(RequestFailed))
    // an ok repository request replaces the repository before anything else
    ensures main.Ok? ==> p.repo == Some(main.payload)
    ensures main.Ok? ==> p.languages == if languages.Some? then languages.value else prior.languages
    ensures main.Ok? && languages.Some? ==>
      p.contributors == if contributors.List? then Contributors(contributors.items) else prior.contributors
    ensures !(main.Ok? && languages.Some?) ==> p.contributors == prior.contributors
    ensures Complete(main, languages, contributors, ownerRepos) ==>
      p.others == OtherRepos(ownerRepos.items, main.payload.id) && p.error == prior.error
    ensures !Complete(main, languages, contributors, ownerRepos) ==> p.others == prior.others
    // every failure records an error, and an earlier error is never cleared
    ensures main.Ok? && !Complete(main, languages, contributors, ownerRepos) ==> p.error == Some(RequestFailed)
    ensures prior.error.Some? ==> p.error.Some?
  {
    match main
    case NotOk => prior.(loading := false, error := Some(FetchFailed))
    case Thrown => prior.(loading := false, error := Some(RequestFailed))
    case Ok(repo) =>
      var withRepo := prior.(repo := Some(repo));
      if languages.None? then withRepo.(loading := false, error := Some(RequestFailed))
      else
        var withLanguages := withRepo.(languages := languages.value);
        if !contributors.List? then withLanguages.(loading := false, error := Some(RequestFailed))
        else
          var withContributors := withLanguages.(contributors := Contributors(contributors.items));
          if !ownerRepos.List? then withContributors.(loading := false, error := Some(RequestFailed))
          else withContributors.(others := OtherRepos(ownerRepos.items, repo.id), loading := false)
  }

  /** What the page renders, checked in this order: the spinner, the error
      line, "No repository found.", the repository. */
  datatype RepoScreen =
    | Spinner
    | ErrorShown(error: RepoError)
    | NoRepository
    | Shown(repo: Repo, languages: seq<string>, contributors: seq<Contributor>, others: seq<Repo>)

  function View(p: RepoState): (v: RepoScreen)
    ensures v.Spinner? <==> p.loading
    ensures v.ErrorShown? <==> !p.loading && p.error.Some?
    ensures v.ErrorShown? ==> v.error == p.error.value
    ensures v.Shown? <==> !p.loading && p.error.None? && p.repo.Some?
    ensures v.Shown? ==> v == Shown(p.repo.value, p.languages, p.contributors, p.others)
  {
    if p.loading then Spinner
    else if p.error.Some? then ErrorShown(p.error.value)
    else if p.repo.None? then NoRepository
    else Shown(p.repo.value, p.languages, p.contributors, p.others)
  }

  /** The first load of a page: the repository is shown iff every request
      answered as expected, and then with this repository's own contents; a
      non-ok repository request shows the fetch error, and any other failure
      the request error. */
  lemma FirstLoad(
    main: Response<Repo>, languages: Option<seq<string>>,
    contributors: Body<Contributor>, ownerRepos: Body<Repo>)
    ensures var v := View(LoadRepo(FreshPage, main, languages, contributors, ownerRepos));
      && (v.Shown? <==> Complete(main, languages, contributors, ownerRepos))
      && (main.NotOk? ==> v == ErrorShown(FetchFailed))
      && (!main.NotOk? && !v.Shown? ==> v == ErrorShown(RequestFailed))
      && (v.Shown? ==> v == Shown(main.payload, languages.value, Contributors(contributors.items),
                                  OtherRepos(ownerRepos.items, main.payload.id)))
  {
  }

  /** Once a page has shown an error, every later load on it shows an error
      too, even when all of its requests succeed: going back from a failed
      repository to one that loaded keeps the error line. */
  lemma StaleErrorStays(
    prior: RepoState, main: Response<Repo>, languages: Option<seq<string>>,
    contributors: Body<Contributor>, ownerRepos: Body<Repo>)
    requires prior.error.Some?
    ensures View(LoadRepo(prior, main, languages, contributors, ownerRepos)).ErrorShown?
    ensures Complete(main, languages, contributors, ownerRepos) ==>
      View(LoadRepo(prior, main, languages, contributors, ownerRepos)) == ErrorShown(prior.error.value)
  {
  }

  /** Open repository `a`, follow a card to `b`, whose request is not ok,
      then go back: `a` loads again in full, and the page still shows the
      fetch error. */
  lemma BackAfterFailedRepo(
    a: Repo, languages: seq<string>, contributors: seq<Contributor>, ownerRepos: seq<Repo>)
    ensures var first := LoadRepo(FreshPage, Ok(a), Some(languages), List(contributors), List(ownerRepos));
      var failed := LoadRepo(first, NotOk, None, Broken, Broken);
      var back := LoadRepo(failed, Ok(a), Some(languages), List(contributors), List(ownerRepos));
      && View(first) == Shown(a, languages, Contributors(contributors), OtherRepos(ownerRepos, a.id))
      && View(back) == ErrorShown(FetchFailed)
  {
  }

  /** The load with the error cleared and the spinner shown when the effect
      starts, as a page reused across `:id` changes needs. */
  function LoadRepoIntended(
    prior: RepoState,
    main: Response<Repo>,
    languages: Option<seq<string>>,
    contributors: Body<Contributor>,
    ownerRepos: Body<Repo>): (p: RepoState)
    ensures !p.loading
    ensures p.error.None? <==> Complete(main, languages, contributors, ownerRepos)
  {
    LoadRepo(prior.(loading := true, error := None), main, languages, contributors, ownerRepos)
  }

  /** With the reset, what the page shows depends only on the current
      answers, never on what an earlier repository left behind. */
  lemma IntendedIgnoresHistory(
    prior: RepoState, main: Response<Repo>, languages: Option<seq<string>>,
    contributors: Body<Contributor>, ownerRepos: Body<Repo>)
    ensures View(LoadRepoIntended(prior, main, languages, contributors, ownerRepos))
         == View(LoadRepo(FreshPage, main, languages, contributors, ownerRepos))
  {
  }

  /** The page never lists the repository itself under "explore more",
      whatever it held before. */
  lemma ShownOthersExcludeCurrent(
    prior: RepoState, main: Response<Repo>, languages: Option<seq<string>>,
    contributors: Body<Contributor>, ownerRepos: Body<Repo>)
    ensures var v := View(LoadRepo(prior, main, languages, contributors, ownerRepos));
      v.Shown? ==> forall i :: 0 <= i < |DisplayedOthers(v.others)| ==> DisplayedOthers(v.others)[i].id != v.repo.id
  {
  }
}

=== FILE: routes.dfy ===
/** The route table of the App component: for each path and user, either
    the page that renders or the path it redirects to. */
module Routes {
  import opened Common
  import opened Session

  datatype Route =
    | Root                          // "/"
    | NameSetup                     // "/username"
    | HomeFeed                      // "/home"
    | OwnProfile                    // "/profile"
    | ProfileOf(login: string)      // "/profile/:username"
    | RepoView(owner: string, id: string)  // "/repo/:username/:id"

  datatype Page = AuthPage | UsernamePage | HomePage | ProfilePage | RepoPage

  datatype Outcome = Render(page: Page) | Redirect(to: Route)

  /** The element each route renders for the current user. */
  function Resolve(r: Route, u: Option<User>): Outcome {
    match r
    case Root =>
      if LoggedIn(u) then (if HasUsername(u) then Redirect(HomeFeed) else Redirect(NameSetup))
      else Render(AuthPage)
    case NameSetup =>
      if LoggedIn(u) then (if HasUsername(u) then Redirect(HomeFeed) else Render(UsernamePage))
      else Redirect(Root)
    case HomeFeed =>
      if LoggedIn(u) then (if HasUsername(u) then Render(HomePage) else Redirect(NameSetup))
      else Redirect(Root)
    case OwnProfile => if LoggedIn(u) then Render(ProfilePage) else Redirect(Root)
    case ProfileOf(_) => if LoggedIn(u) then Render(ProfilePage) else Redirect(Root)
    case RepoView(_, _) => Render(RepoPage)
  }

  /** The page each onboarding stage is sent to from "/". */
  lemma RootByStage(u: Option<User>)
    ensures StageOf(u) == Anonymous <==> Resolve(Root, u) == Render(AuthPage)
    ensures StageOf(u) == Named <==> Resolve(Root, u) == Redirect(HomeFeed)
    ensures StageOf(u) == SignedIn <==> Resolve(Root, u) == Redirect(NameSetup)
  {
  }

  /** "/home" renders the feed exactly for a signed-in user with a
      username; everyone else is sent back one onboarding step. */
  lemma HomeGuard(u: Option<User>)
    ensures Resolve(HomeFeed, u) == Render(HomePage) <==> LoggedIn(u) && HasUsername(u)
    ensures StageOf(u) == SignedIn <==> Resolve(HomeFeed, u) == Redirect(NameSetup)
    ensures StageOf(u) == Anonymous <==> Resolve(HomeFeed, u) == Redirect(Root)
  {
  }

  /** "/username" renders the setup form only between sign-in and the
      choice of a username; a named user goes on to "/home", an anonymous
      one back to "/". */
  lemma UsernameGuard(u: Option<User>)
    ensures Resolve(NameSetup, u) == Render(UsernamePage) <==> StageOf(u) == SignedIn
    ensures Resolve(NameSetup, u) == Redirect(HomeFeed) <==> StageOf(u) == Named
    ensures Resolve(NameSetup, u) == Redirect(Root) <==> StageOf(u) == Anonymous
  {
  }

  /** Profiles need only a signed-in user, not a username; repositories
      render for everyone. */
  lemma ProfileAndRepoGuard(u: Option<User>, login: string, owner: string, id: string)
    ensures Resolve(OwnProfile, u) == Render(ProfilePage) <==> LoggedIn(u)
    ensures Resolve(ProfileOf(login), u) == Render(ProfilePage) <==> LoggedIn(u)
    ensures StageOf(u) == SignedIn ==> Resolve(OwnProfile, u).Render?
    ensures Resolve(RepoView(owner, id), u) == Render(RepoPage)
  {
  }

  /** Whatever the route, the page rendered for an anonymous user is the
      sign-in form or a repository. */
  lemma AnonymousSeesOnlyAuthOrRepo(r: Route, u: Option<User>)
    requires !LoggedIn(u)
    ensures Resolve(r, u).Render? ==> Resolve(r, u).page in {AuthPage, RepoPage}
    ensures Resolve(r, u).Redirect? ==> Resolve(r, u).to == Root
  {
  }

  /** 0 for a route that renders, 1 for one that redirects. */
  function Rank(r: Route, u: Option<User>): nat {
    if Resolve(r, u).Render? then 0 else 1
  }

  /** The target of every redirect renders: redirects never chain. */
  lemma RedirectLands(r: Route, u: Option<User>)
    requires Resolve(r, u).Redirect?
    ensures Resolve(Resolve(r, u).to, u).Render?
  {
  }

  /** Follows redirects from `r` until a route renders, returning the page,
      the route it was reached at and the number of redirects taken. It
      terminates because each redirect lowers the rank, so there is no
      redirect loop, and no route needs more than one hop. */
  function Settle(r: Route, u: Option<User>): (res: (Page, Route, nat))
    ensures Resolve(res.1, u) == Render(res.0)
    ensures res.2 <= Rank(r, u) <= 1
    ensures res.2 == 0 <==> res.1 == r
    // a rendering route is its own page; a redirect lands on its target
    ensures Resolve(r, u).Render? ==> res.0 == Resolve(r, u).page
    ensures Resolve(r, u).Redirect? ==> res.1 == Resolve(r, u).to
    decreases Rank(r, u)
  {
    match Resolve(r, u)
    case Render(p) => (p, r, 0)
    case Redirect(next) =>
      RedirectLands(r, u);
      var (p, at, hops) := Settle(next, u);
      (p, at, hops + 1)
  }

  /** After logout every guarded route leads back to the sign-in form. */
  lemma LogoutLocksGuardedRoutes(s: AppState, r: Route)
    requires !r.RepoView?
    ensures Settle(r, Logout(s).user).0 == AuthPage
    ensures Settle(r, Logout(s).user).1 == Root
  {
  }
}

=== FILE: session.dfy ===
/** The signed-in user as the top-level App component keeps it: in memory,
    mirrored to the browser's local storage, restored at startup and
    updated by the authentication service's change events and by logout. */
module Session {
  import opened Common

  /** The user object `{email, loggedIn, username}`; `username` is absent
      until the user has chosen one. */
  datatype User = User(email: string, loggedIn: bool, username: Option<string>)

  /** App state: the in-memory user (`null` is `None`), the copy stored
      under the key 'user', whether the startup check is still pending, and
      whether the auth-change listener was subscribed. */
  datatype AppState = AppState(user: Option<User>, stored: Option<User>, loading: bool, listening: bool)

  /** `user?.loggedIn` is truthy. */
  predicate LoggedIn(u: Option<User>) {
    u.Some? && u.value.loggedIn
  }

  /** `user?.username` is truthy: present and not the empty string. */
  predicate HasUsername(u: Option<User>) {
    u.Some? && u.value.username.Some? && u.value.username.value != ""
  }

  /** The three onboarding stages the route guard distinguishes. */
  datatype Stage = Anonymous | SignedIn | Named

  function StageOf(u: Option<User>): Stage {
    if !LoggedIn(u) then Anonymous
    else if !HasUsername(u) then SignedIn
    else Named
  }

  /** The stored copy mirrors the in-memory user. */
  predicate Synced(s: AppState) {
    s.stored == s.user
  }

  /** The user object built from an authenticated session. */
  function FromSession(email: string): (u: User)
    ensures u.loggedIn && u.username.None?
    ensures StageOf(Some(u)) == SignedIn
  {
    User(email, true, None)
  }

  /** Startup: a stored user is taken as it is and the session is not
      consulted (nor is the listener subscribed); otherwise the session's
      user, if any, becomes a fresh signed-in user and is stored. `session`
      is the email of the session's user, `None` when there is none. */
  function Startup(stored: Option<User>, session: Option<string>): (s: AppState)
    ensures !s.loading && Synced(s)
    ensures stored.Some? ==> s.user == stored && !s.listening
    ensures stored.None? ==> s.listening
    ensures stored.None? ==> (s.user.Some? <==> session.Some?)
    ensures stored.None? && session.Some? ==> s.user == Some(FromSession(session.value))
  {
    if stored.Some? then AppState(stored, stored, false, false)
    else if session.Some? then
      var u := FromSession(session.value);
      AppState(Some(u), Some(u), false, true)
    else AppState(None, None, false, true)
  }

  /** The auth-change listener: an event with a user signs in a fresh
      user (any chosen username is dropped), an event without one signs
      out. Nothing happens when the listener was never subscribed. */
  function AuthChange(s: AppState, session: Option<string>): (r: AppState)
    ensures !s.listening ==> r == s
    ensures s.listening && session.Some? ==> r.user == Some(FromSession(session.value)) && Synced(r)
    ensures s.listening && session.None? ==> r.user.None? && r.stored.None?
    ensures r.loading == s.loading && r.listening == s.listening
  {
    if !s.listening then s
    else if session.Some? then
      var u := FromSession(session.value);
      s.(user := Some(u), stored := Some(u))
    else s.(user := None, stored := None)
  }

  /** `logout`: sign out, forget the user, remove the stored copy. */
  function Logout(s: AppState): (r: AppState)
    ensures r.user.None? && r.stored.None?
    ensures StageOf(r.user) == Anonymous
    ensures r.loading == s.loading && r.listening == s.listening
  {
    s.(user := None, stored := None)
  }

  /** With a stored user the session answer makes no difference. */
  lemma StartupSkipsSession(u: User, a: Option<string>, b: Option<string>)
    ensures Startup(Some(u), a) == Startup(Some(u), b)
  {
  }
}

=== FILE: text.dfy ===
/** `String.prototype.trim` as ECMAScript defines it: strip white space and
    line terminators from both ends. */
module Text {

  /** The code points ECMAScript counts as WhiteSpace or LineTerminator
      (tab, line feed, vertical tab, form feed, carriage return, space,
      no-break space, byte order mark and the Unicode space separators). */
  predicate IsSpace(c: char) {
    var n := c as int;
    n == 0x09 || n == 0x0A || n == 0x0B || n == 0x0C || n == 0x0D || n == 0x20
    || n == 0xA0 || n == 0x1680 || (0x2000 <= n <= 0x200A) || n == 0x2028
    || n == 0x2029 || n == 0x202F || n == 0x205F || n == 0x3000 || n == 0xFEFF
  }

  /** Empty, or white space only: the strings whose trim is falsy. */
  predicate IsBlank(s: string) {
    forall k :: 0 <= k < |s| ==> IsSpace(s[k])
  }

  /** The number of leading characters satisfying `p`: all of them do, and
      the next one, if any, does not. */
  function Lead(s: string, p: char -> bool): (n: nat)
    ensures n <= |s|
    ensures forall k :: 0 <= k < n ==> p(s[k])
    ensures n < |s| ==> !p(s[n])
    decreases |s|
  {
    if |s| > 0 && p(s[0]) then 1 + Lead(s[1..], p) else 0
  }

  /** The number of trailing characters satisfying `p`: all of them do, and
      the one before them, if any, does not. */
  function Trail(s: string, p: char -> bool): (n: nat)
    ensures n <= |s|
    ensures forall k :: |s| - n <= k < |s| ==> p(s[k])
    ensures n < |s| ==> !p(s[|s| - n - 1])
    decreases |s|
  {
    if |s| > 0 && p(s[|s| - 1]) then 1 + Trail(s[..|s| - 1], p) else 0
  }

  /** Both ends stripped of characters satisfying `p`. When every character
      satisfies `p` nothing is left; otherwise the leading and trailing runs
      do not overlap. */
  function Strip(s: string, p: char -> bool): (r: string)
    ensures |r| <= |s|
    ensures |r| > 0 ==> !p(r[0]) && !p(r[|r| - 1])
    ensures r == [] <==> Lead(s, p) == |s|
    ensures r != [] ==> Lead(s, p) + Trail(s, p) < |s| && r == s[Lead(s, p)..|s| - Trail(s, p)]
  {
    var i := Lead(s, p);
    if i == |s| then []
    else
      var j := |s| - Trail(s, p);
      assert i < j;
      s[i..j]
  }

  /** `s.trim()`. */
  function Trim(s: string): (r: string)
    ensures |r| <= |s|
    ensures |r| > 0 ==> !IsSpace(r[0]) && !IsSpace(r[|r| - 1])
  {
    Strip(s, IsSpace)
  }

  /** The trimmed string is the slice of `s` that starts after its leading
      white space and has only white space after it. */
  lemma TrimIsSlice(s: string)
    ensures Lead(s, IsSpace) + |Trim(s)| <= |s|
    ensures Trim(s) == s[Lead(s, IsSpace)..Lead(s, IsSpace) + |Trim(s)|]
    ensures forall k :: 0 <= k < Lead(s, IsSpace) ==> IsSpace(s[k])
    ensures forall k :: Lead(s, IsSpace) + |Trim(s)| <= k < |s| ==> IsSpace(s[k])
  {
    var r := Trim(s);
    if r != [] {
      assert Lead(s, IsSpace) + |r| == |s| - Trail(s, IsSpace);
    }
  }

  /** The trimmed string is empty exactly when the input is blank. */
  lemma TrimEmptyIffBlank(s: string)
    ensures Trim(s) == "" <==> IsBlank(s)
  {
    var i := Lead(s, IsSpace);
    if i < |s| {
      assert !IsSpace(s[i]);
    }
  }

  /** Trimming twice is trimming once. */
  lemma TrimIdempotent(s: string)
    ensures Trim(Trim(s)) == Trim(s)
  {
    var r := Trim(s);
    if r != [] {
      assert Lead(r, IsSpace) == 0;
      assert Trail(r, IsSpace) == 0;
      assert r[0..|r|] == r;
    }
  }
}

=== FILE: username.dfy ===
/** The username step: the form is pre-filled from a search of the
    platform's users by the account's email; submitting saves the trimmed
    name on the user, in memory and in local storage, inserts it into the
    table of registered names, and continues to "/home". */
module UsernameSetup {
  import opened Common
  import opened Text
  import opened Session
  import opened Routes

  /** The form's state: the login found by the search, the text in the
      input, the spinner flag and the error line. */
  datatype Form = Form(githubUsername: Option<string>, input: string, loading: bool, errorMsg: string)

  /** The user search: an answer with its `total_count` and the logins of
      its items, or a failure (network error or a body without items). */
  datatype Search = Answer(totalCount: int, logins: seq<string>) | SearchFailed

  /** The insert into the table of registered names: it succeeded, it
      returned an error with a code, or it threw. */
  datatype InsertReply = Inserted | InsertError(code: string) | InsertThrew

  /** Everything one submit changes: the form, the App state, the name sent
      to the table (`None` when nothing is inserted), and the navigation. */
  datatype Submit = Submit(form: Form, app: AppState, insert: Option<string>, navigate: Option<Route>)

  const EmptyMessage := "Username cannot be empty."
  const SaveFailedMessage := "Failed to save username to database."
  const WentWrongMessage := "Something went wrong. Please try again."
  /** The code the table reports for a name that is already registered. */
  const DuplicateKey := "23505"

  function Initial(): Form {
    Form(None, "", true, "")
  }

  /** The search result pre-fills the form. A zero count finds nobody; a
      non-zero count with no items throws, which is caught as nobody too. */
  function Prefill(f: Form, search: Search): (r: Form)
    ensures !r.loading && r.errorMsg == f.errorMsg
    ensures r.githubUsername.Some? <==> search.Answer? && search.totalCount != 0 && |search.logins| > 0
    ensures r.githubUsername.Some? ==> r.githubUsername.value == search.logins[0] && r.input == search.logins[0]
    ensures r.githubUsername.None? ==> r.input == f.input
  {
    match search
    case Answer(count, logins) =>
      if count == 0 then f.(githubUsername := None, loading := false)
      else if |logins| == 0 then f.(githubUsername := None, loading := false)
      else f.(githubUsername := Some(logins[0]), input := logins[0], loading := false)
    case SearchFailed => f.(githubUsername := None, loading := false)
  }

  /** The error line an insert reply leaves: nothing for success or for a
      duplicate name, a save failure for any other code. */
  function InsertMessage(reply: InsertReply): (m: string)
    requires !reply.InsertThrew?
    ensures m == "" <==> reply.Inserted? || reply.code == DuplicateKey
  {
    match reply
    case Inserted => ""
    case InsertError(code) => if code == DuplicateKey then "" else SaveFailedMessage
  }

  /** `handleSubmit`, including the delayed navigation. The page is only
      mounted for a signed-in user, which is what `requires` says. */
  function HandleSubmit(f: Form, app: AppState, reply: InsertReply): (r: Submit)
    requires LoggedIn(app.user)
    // a blank name is refused and nothing else happens
    ensures IsBlank(f.input) ==> r == Submit(f.(errorMsg := EmptyMessage), app, None, None)
    // otherwise the trimmed name is saved and every other field is kept
    ensures !IsBlank(f.input) ==>
      && r.app.user == Some(app.user.value.(username := Some(Trim(f.input))))
      && Synced(r.app)
      && r.app.loading == app.loading && r.app.listening == app.listening
      && r.insert == Some(Trim(f.input))
      && !r.form.loading
      && r.form.input == f.input && r.form.githubUsername == f.githubUsername
    // the app continues to "/home" unless the insert threw
    ensures !IsBlank(f.input) ==> (r.navigate.Some? <==> !reply.InsertThrew?)
    ensures r.navigate.Some? ==> r.navigate.value == HomeFeed
    ensures !IsBlank(f.input) && reply.InsertThrew? ==> r.form.errorMsg == WentWrongMessage
    ensures !IsBlank(f.input) && reply.Inserted? ==> r.form.errorMsg == ""
    ensures !IsBlank(f.input) && reply.InsertError? ==>
      r.form.errorMsg == (if reply.code == DuplicateKey then "" else SaveFailedMessage)
  {
    var name := Trim(f.input);
    TrimEmptyIffBlank(f.input);
    if name == "" then
      Submit(f.(errorMsg := EmptyMessage), app, None, None)
    else
      var updated := app.user.value.(username := Some(name));
      var app' := app.(user := Some(updated), stored := Some(updated));
      if reply.InsertThrew? then
        Submit(f.(loading := false, errorMsg := WentWrongMessage), app', Some(name), None)
      else
        Submit(f.(loading := false, errorMsg := InsertMessage(reply)), app', Some(name), Some(HomeFeed))
  }

  /** A saved name is never blank and never carries white space at its
      ends, and the user it is saved on has reached the feed: "/home"
      renders without a redirect. */
  lemma SubmitUnlocksHome(f: Form, app: AppState, reply: InsertReply)
    requires LoggedIn(app.user)
    requires !IsBlank(f.input)
    ensures var r := HandleSubmit(f, app, reply);
      && StageOf(r.app.user) == Named
      && Resolve(HomeFeed, r.app.user) == Render(HomePage)
      && var name := r.app.user.value.username.value;
         !IsSpace(name[0]) && !IsSpace(name[|name| - 1])
  {
  }

  /** The user is named as soon as the handler has set it, before the
      insert is answered, so "/username" itself then redirects to "/home":
      the app leaves the form on every non-blank submit, whatever the insert
      replied, and the form's error line is no longer on screen. */
  lemma SubmitLeavesUsernamePage(f: Form, app: AppState, reply: InsertReply)
    requires LoggedIn(app.user)
    requires !IsBlank(f.input)
    ensures Resolve(NameSetup, HandleSubmit(f, app, reply).app.user) == Redirect(HomeFeed)
    ensures Settle(NameSetup, HandleSubmit(f, app, reply).app.user) == (HomePage, HomeFeed, 1)
  {
    SubmitUnlocksHome(f, app, reply);
  }

  /** Submitting the form as the search left it: a found login (that is not
      blank) becomes the username, trimmed; when nothing was found the input
      is still empty and the submit is refused. */
  lemma PrefillThenSubmit(search: Search, app: AppState, reply: InsertReply)
    requires LoggedIn(app.user)
    ensures var f := Prefill(Initial(), search);
      f.githubUsername.Some? && !IsBlank(f.githubUsername.value) ==>
        HandleSubmit(f, app, reply).app.user.value.username == Some(Trim(f.githubUsername.value))
    ensures var f := Prefill(Initial(), search);
      f.githubUsername.None? ==>
        HandleSubmit(f, app, reply) == Submit(f.(errorMsg := EmptyMessage), app, None, None)
  {
    var f := Prefill(Initial(), search);
    if f.githubUsername.None? {
      assert f.input == "";
    }
  }

  /** The email and sign-in flag of the user survive the submit, whatever
      the insert replied. */
  lemma SubmitKeepsAccount(f: Form, app: AppState, reply: InsertReply)
    requires LoggedIn(app.user)
    ensures var r := HandleSubmit(f, app, reply);
      && r.app.user.Some?
      && r.app.user.value.email == app.user.value.email
      && r.app.user.value.loggedIn
  {
  }
}
